=== FILE: README.md ===
# Payment saga, modelled in Dafny

A payment goes through four serverless stages:

- The **initializer** is an HTTP handler. It validates a checkout, writes one `PaymentEvent` row and one `PaymentOrder` row per order, and enqueues one Execution message.
- The **executor** reads Execution messages from a queue. It sends each payment to a payment service provider (PSP) and enqueues a Result message saying `SUCCESS` or `FAILED`.
- The **settlement** stage (the "wallet" function) reads Result messages. On success it credits every seller's wallet, marks the orders, and flags the checkout as paid. On failure it marks the orders failed.
- The **PSP simulator** is an HTTP handler. It answers each request with 400, 500, 200-failed or 200-success, and remembers every payment id it has already made fail.

Each stage is modelled as a pure function:

- The three DynamoDB tables are immutable maps, held in `Ledger.Ledger`.
- An SQS queue is a sequence of JSON messages, the "outbox".
- Anything the code cannot compute itself is a parameter: the PSP reply, the queue's answer to a send, the orders the index query returns, the clock, and `random.choice`.
- Raised exceptions are `Faults.Fault` values.

Two stages are partial-batch SQS consumers. `Batch.Run` folds a handler over a batch's records and collects the ids of the records that raised.

Modules and what they hold:

- `Base`: `Option` and `Result`.
- `Json`: JSON values, Python truthiness, `dict.get`, and HTTP responses.
- `Text`: digit strings, `'.'.join` with its inverse `str.split`, and `str.replace`.
- `Decimals`: Python `Decimal` as an exact coefficient and exponent. It includes the parser, `str()`, and exact addition.
- `Faults`: the exceptions, and the `simulate_error` fault-injection hook the stages share.
- `Checkout`: the pydantic models `BuyerInfo`, `PaymentOrder` and `PaymentEvent`, their validation and error messages, `total_amount`, `currency`, `seller_info`, and `format_validation_errors`.
- `Ledger`: the table rows and the order `put_item` batch.
- `Messages`: the Execution and Result queue messages, their encodings, and their read-back.
- `Initializer`, `Executor`, `Settlement` and `Psp`: the four stages.
- `Batch`: the per-record fold of a partial batch.
- `Saga`: the stages composed. What the initializer enqueues reaches the executor. What the executor sends reaches the simulator. A written checkout settles into its sellers' wallets.

## Model

| member | source | states |
|---|---|---|
| Faults.SimulateError | src/lambda-payments-initializer/lambda.py:39-52 | A falsy `simulate` never raises. A `RuntimeError` is raised if and only if the stage's entry is a dict with a truthy `error`, and then it carries the entry's `message`, or the stage's default text when there is none. An `AttributeError` is raised if and only if `simulate` is truthy and it, or the stage's entry in it, is not a dict. |
| Faults.SimulateIsolation | src/lambda-payments-executor/lambda.py:78-91 | Configuration written under another stage's key never changes whether, or how, this stage's hook raises. |
| Checkout.ValidateAmount | src/lambda-payments-initializer/lambda.py:66-74 | An accepted amount is returned unchanged. A rejected one carries exactly the message "Invalid amount format: " followed by the value. |
| Checkout.ValidateAmountAccepts | src/lambda-payments-initializer/lambda.py:66-74 | An amount is accepted if and only if it parses as a decimal whose value is at least 0. |
| Checkout.ValidateAmountOfText | src/lambda-payments-initializer/lambda.py:66-74 | The text `str()` gives for a decimal is accepted exactly when that decimal is non-negative. |
| Decimals.ToString | src/lambda-payments-initializer/lambda.py:85 | `str()` of a decimal starts with "-" if and only if the coefficient is negative. The sign, if any, is followed by a digit. |
| Decimals.Add | src/lambda-payments-initializer/lambda.py:85 | Decimal addition is exact. The sum's exponent is the smaller of the two operands' exponents. |
| Decimals.ParseToString | src/lambda-payments-initializer/lambda.py:85 | The text `str()` gives for any decimal parses back to the same coefficient and exponent. |
| Checkout.SumAmounts | src/lambda-payments-initializer/lambda.py:85 | The decimal sum of the orders' amounts has exactly the sum of their values, which is non-negative. |
| Checkout.TotalAmount | src/lambda-payments-initializer/lambda.py:84-85 | `total_amount` reads back as a decimal equal to the exact sum of the order amounts. It is "0" without orders. It passes amount validation itself. |
| Checkout.Currency | src/lambda-payments-initializer/lambda.py:87-89 | The currency is the first order's currency, or "USD" when there are no orders. |
| Checkout.CurrencyIgnoresLater | src/lambda-payments-initializer/lambda.py:87-89 | Appending orders after the first never changes the checkout's currency. |
| Checkout.SellerInfoEffect | src/lambda-payments-initializer/lambda.py:91-93 | `seller_info` has exactly the orders' ids as keys. Each id maps to the seller account of the last order carrying it, so with duplicate ids the later order wins. |
| Checkout.ValidateBuyer | src/lambda-payments-initializer/lambda.py:55-57 | `BuyerInfo` validates if and only if the input is a dict whose `user_id` and `email` are strings. The buyer then carries exactly those two strings. A rejection lists at least one error. |
| Checkout.BuyerField | src/lambda-payments-initializer/lambda.py:79 | A validated buyer carries the body's `buyer_info.user_id` and `buyer_info.email`. A missing or invalid `buyer_info` is rejected with at least one error. |
| Checkout.StrField | src/lambda-payments-initializer/lambda.py:55-64 | A `str` field validates if and only if it is present and a JSON string. Otherwise exactly one error is reported, located at that field. |
| Checkout.AmountField | src/lambda-payments-initializer/lambda.py:60-74 | `amount` validates if and only if it is a string the amount validator accepts. A string it rejects yields exactly that validator's error. |
| Checkout.ValidateOrder | src/lambda-payments-initializer/lambda.py:60-74 | A validated order carries the item's four fields, and its amount passes validation. An item whose amount string is rejected fails with the amount error among its errors. |
| Checkout.Appended | src/lambda-payments-initializer/lambda.py:81 | Validating a list succeeds only if every item does. The errors of all items are reported in order. |
| Checkout.ValidateOrderList | src/lambda-payments-initializer/lambda.py:81 | A validated list has one order per item, in item order. Each order carries its item's fields and has a valid amount. A failure reports at least one error. |
| Checkout.CardField | src/lambda-payments-initializer/lambda.py:80 | A validated `credit_card_info` is exactly the body's dict. |
| Checkout.OrdersField | src/lambda-payments-initializer/lambda.py:81 | Validated `payment_orders` come from a JSON list of the same length, item for item. |
| Checkout.Validate | src/lambda-payments-initializer/lambda.py:77-81 | A validated checkout carries the body's `checkout_id`, the `user_id` and `email` of its `buyer_info`, its `credit_card_info`, and its orders item for item, with valid amounts. A rejection lists at least one error. |
| Checkout.ValidateDump | src/lambda-payments-initializer/lambda.py:77-81 | Validating a checkout's `model_dump()`, with any extra non-model keys added, gives back that checkout. |
| Checkout.ValidateOrderListDump | src/lambda-payments-initializer/lambda.py:60-64 | Validating the dumped orders gives back the same orders. |
| Checkout.BadAmountReported | src/lambda-payments-initializer/lambda.py:66-74 | A list whose item `i` has an amount string the validator rejects fails validation. Among the errors is that amount's error, located at `payment_orders.i.amount`. |
| Checkout.BadAmountRejectsBody | src/lambda-payments-initializer/lambda.py:66-81 | The same holds for a whole checkout body: its validation fails and reports the amount's error. |
| Checkout.FormatValidationErrors | src/lambda-payments-initializer/lambda.py:168-176 | There is exactly one entry per error, in order. Each is a dict with exactly the keys `field`, `message` and `value`, and its `value` is the error's input. |
| Checkout.DetailOf | src/lambda-payments-initializer/lambda.py:170-174 | An error's detail has exactly the keys `field`, `message` and `value`. `value` is the error's input. `message` is the error's text when that holds no "Value error, ". When the text is "Value error, " followed by a rest that holds no other, `message` is that rest. When no field name on the location holds a dot, splitting `field` at its dots gives back the location's steps one by one. |
| Checkout.FormattedErrors | src/lambda-payments-initializer/lambda.py:168-176 | The facts of the row above hold for the entry at every position of the formatted list. |
| Text.SplitJoin | src/lambda-payments-initializer/lambda.py:171 | When no part holds the separator, splitting the joined text at the separator gives back the parts, so the join loses nothing. |
| Checkout.AmountDetail | src/lambda-payments-initializer/lambda.py:168-176 | The detail for a rejected amount at position `i` has field "payment_orders.i.amount", the message "Invalid amount format: v", and the value `v`. |
| Ledger.EventRowOf | src/lambda-payments-initializer/lambda.py:110-116 | The event row carries the checkout's id and its `seller_info`, with `is_payment_done` false. |
| Ledger.OrderRowOf | src/lambda-payments-initializer/lambda.py:120-129 | An order row carries the order's id, amount and currency, the checkout id, and the buyer's user id. Its status is "NOT_STARTED" and both flags are false. |
| Ledger.PutOrdersKeys | src/lambda-payments-initializer/lambda.py:118-129 | After the batch of puts, the table holds exactly its previous ids plus the orders' ids. |
| Ledger.PutOrdersLastWins | src/lambda-payments-initializer/lambda.py:118-129 | The row for an id is the one built from the last order carrying that id. |
| Ledger.PutOrdersFrame | src/lambda-payments-initializer/lambda.py:118-129 | Rows whose id no order carries are untouched. |
| Ledger.PutOrdersEffect | src/lambda-payments-initializer/lambda.py:118-129 | The three facts above together. |
| Initializer.Written | src/lambda-payments-initializer/lambda.py:110-116 | The event table gains or replaces exactly the checkout's row. Every other event and all wallets are unchanged. |
| Initializer.WrittenOrders | src/lambda-payments-initializer/lambda.py:118-129 | The order table gains one row per order id, with the last order per id winning. Every other row is unchanged. |
| Initializer.ProcessPayment | src/lambda-payments-initializer/lambda.py:131-142 | The rows are written whatever happens next. Success holds if and only if the hook did not raise and the queue took the message. Then exactly one Execution message is appended. Otherwise the queue is unchanged, and the hook's exception, or else the send's `ClientError`, is returned. |
| Initializer.ProcessDelivered | src/lambda-payments-initializer/lambda.py:96-157 | Without an injected error and with a delivered send, the result is the written tables, one Execution message, and the receipt. |
| Initializer.ScanAcceptsValid | src/lambda-payments-initializer/lambda.py:187-192 | A body that validates never makes the pre-validation summary raise. |
| Initializer.ResponseFor | src/lambda-payments-initializer/lambda.py:209-238 | A return is answered with 202 carrying the receipt. Any exception is answered with 500. |
| Initializer.HandleData | src/lambda-payments-initializer/lambda.py:180-238 | Replies are 202, 400 or 500. Only a 202 enqueues anything. A 400, or an exception escaping the handler, leaves the tables as they were. |
| Initializer.Handle | src/lambda-payments-initializer/lambda.py:180-185 | A body that is not JSON gets 400 "Invalid JSON" and changes nothing. A body that is not text raises out of the handler. The properties of the row above hold for every request. |
| Initializer.EnqueuesAtMostOne | src/lambda-payments-initializer/lambda.py:133-142 | A request leaves the queue unchanged, or appends exactly one message after what it held. |
| Initializer.AcceptsCheckout | src/lambda-payments-initializer/lambda.py:207-210 | A request whose body is a valid checkout's dump is answered 202 with the receipt. It writes the rows and enqueues exactly its Execution message with `simulate` `{}`. |
| Initializer.HandleValid | src/lambda-payments-initializer/lambda.py:207-210 | A body that validates is processed with its own `simulate` entry. The reply is what processing returned. |
| Initializer.SimulatedFailureKeepsRows | src/lambda-payments-initializer/lambda.py:131-234 | An injected initializer error still writes the rows. It enqueues nothing and answers 500 "Processing failed" with the injected message. |
| Initializer.HandleInvalid | src/lambda-payments-initializer/lambda.py:207-226 | A body that passes the pre-validation summary but fails validation is answered 400 with its errors' details. The tables and the queue are unchanged. |
| Initializer.RejectionLists | src/lambda-payments-initializer/lambda.py:226 | A validation failure is answered 400, with every error's detail among the `details`. |
| Initializer.RejectsBadAmount | src/lambda-payments-initializer/lambda.py:212-226 | A checkout with a rejected amount at position `i` is answered 400, with that amount's detail in `details`. Nothing is written or enqueued. |
| Messages.SimulateOrEmpty | src/lambda-payments-initializer/lambda.py:140 | `simulate or {}` is the configuration when it is truthy, and `{}` otherwise. |
| Messages.ExecutionRoundTrip | src/lambda-payments-executor/lambda.py:71-76 | The Execution message the initializer serialises validates in the executor as the same five fields. |
| Messages.DecodeExecution | src/lambda-payments-executor/lambda.py:71-76 | An Execution message validates if and only if the data is a dict whose `checkout_id`, `total_amount` and `currency` are strings, whose `credit_card_info` is a dict, and whose `simulate` is absent, null or a dict. The message then carries exactly those values. Its `simulate` is set if and only if the data's is a dict. |
| Messages.DecodeResult | src/lambda-payments-wallet/lambda.py:37-41 | A Result message validates if and only if the data is a dict whose `checkout_id` and `status` are strings, whose `error_code` is absent, null or a string, and whose `simulate` is absent, null or a dict. The message then carries exactly those values. `error_code` and `simulate` are set if and only if the data holds a string and a dict there. |
| Messages.ResultRoundTrip | src/lambda-payments-wallet/lambda.py:37-41 | A Result message validates in the settlement stage if and only if its `error_code` is null or a string. It then reads back field for field. |
| Messages.RecordData | src/lambda-payments-executor/lambda.py:224-225 | A missing body reads as `{}`. A structured body is taken as is. A text body reads if and only if it is JSON. |
| Json.BuildResponse | src/lambda-payments-initializer/lambda.py:160-165 | The response carries the given status code and body, with the single header `Content-Type: application/json`. |
| Json.OptionalObject | src/lambda-payments-executor/lambda.py:106 | An optional dict is truthy if and only if it is present and non-empty. |
| Executor.PspPayload | src/lambda-payments-executor/lambda.py:100-107 | The payload carries `payment_id` = checkout id, `amount` = total amount, and `currency`. `simulate` is present if and only if the configuration is truthy, and then equals it. There are no other keys. |
| Executor.Classify | src/lambda-payments-executor/lambda.py:125-164 | A reply settles if and only if its status is below 500 and its body is a JSON object. The status is SUCCESS if and only if the body's `status` is "success". `error_code` is copied verbatim. A status of 500 or more raises "PSP returned N". A transport failure re-raises. |
| Executor.Execute | src/lambda-payments-executor/lambda.py:94-221 | No exception escapes if and only if the hook is quiet, the URL is set, the reply settles, and the queue takes the message. Then exactly one Result message is appended. Otherwise nothing is. The PSP is called, at URL + "/process" with the payload, if and only if the hook is quiet and the URL is set. A refused send becomes a `RuntimeError` with the fixed prefix. |
| Executor.HandleRecord | src/lambda-payments-executor/lambda.py:223-227 | A body that is not JSON, or does not validate, raises before anything else happens. A raising record enqueues nothing. |
| Executor.ExecuteEnqueuesOnce | src/lambda-payments-executor/lambda.py:190-201 | A message appends one Result message when nothing escapes, and none otherwise. What the queue held is kept. |
| Executor.ReplyBelow500Settles | src/lambda-payments-executor/lambda.py:143-196 | Every reply below 500 with an object body, 4xx included, is turned into exactly the Result message of its status and `error_code`. |
| Executor.ResultReadsBack | src/lambda-payments-executor/lambda.py:190-201 | The Result message enqueued validates in the settlement stage if and only if the PSP's `error_code` was null or a string. It then reads back as checkout id, status, code and `simulate or {}`. |
| Executor.InjectedStopsBeforePsp | src/lambda-payments-executor/lambda.py:78-98 | An injected executor error raises with its message, or "Simulated error", before any PSP call or enqueue. |
| Executor.RecordStepEnqueuesOnce | src/lambda-payments-executor/lambda.py:223-227 | A record appends one message exactly when it does not raise. |
| Executor.BatchEnqueuesPerSuccess | src/lambda-payments-executor/lambda.py:229-239 | A batch appends exactly one Result message per record not reported as failed, after what the queue held. |
| Batch.Run | src/lambda-payments-executor/lambda.py:234-239 | A batch reports at most as many failures as it has records. |
| Batch.RunIsReplay | src/lambda-payments-executor/lambda.py:234-239 | Handling the records one after another from the front, each from the state the previous one left, gives the same final state. It reports exactly the ids of the records whose handler raised, in batch order. |
| Batch.FailuresAreRaising | src/lambda-payments-wallet/lambda.py:203-208 | When whether a record raises depends on the record alone, the reported failures are exactly the ids of the raising records, in batch order. |
| Executor.BatchReportsFailingRecords | src/lambda-payments-executor/lambda.py:223-239 | An executor batch reports exactly the ids of the records that fail, in batch order. A record fails when its body is not JSON, is not an Execution message, or trips the fault hook, when `PSP_URL` is unset, when the PSP's reply does not settle, or when the result queue refuses the message. |
| Batch.RunAppend | src/lambda-payments-executor/lambda.py:234-239 | Handling two batches back to back is handling their concatenation. The failures concatenate. |
| Batch.RunAppends | src/lambda-payments-executor/lambda.py:234-239 | With a handler that appends one message unless it raises, a batch appends one message per record not reported. |
| Batch.FailuresFromBatch | src/lambda-payments-wallet/lambda.py:203-208 | Every reported id is one of the batch's message ids. A handler that never raises reports nothing. |
| Batch.FailureReport | src/lambda-payments-wallet/lambda.py:203-208 | The batch response lists one `itemIdentifier` per failed message id, in order. |
| Settlement.Credited | src/lambda-payments-wallet/lambda.py:92-100 | The credited merchant's balance grows by exactly the amount, from 0 for a new wallet. Its currency and timestamp are set. Every other wallet is unchanged. |
| Settlement.CreditOne | src/lambda-payments-wallet/lambda.py:85-109 | An order settles if and only if its seller mapping is non-empty and its amount parses. A missing seller raises "Missing seller_account for payment_order id". On success the wallet is credited, the order becomes SUCCESS with `wallet_updated`, and the events are untouched. |
| Settlement.CreditAll | src/lambda-payments-wallet/lambda.py:85-123 | The loop over the orders never touches the event table. |
| Settlement.CreditAllFrame | src/lambda-payments-wallet/lambda.py:85-109 | Orders not in the query result, and wallets of merchants no processed order maps to, are untouched. |
| Settlement.CreditAllMarks | src/lambda-payments-wallet/lambda.py:102-109 | When the loop completes, every queried order is SUCCESS with `wallet_updated`. |
| Settlement.CreditAllBalances | src/lambda-payments-wallet/lambda.py:92-100 | When the loop completes, each merchant's balance has grown by exactly the sum of the amounts of the orders mapped to it. |
| Settlement.CreditAllFaultIndependent | src/lambda-payments-wallet/lambda.py:85-90 | Whether and where the loop raises depends only on the seller mapping and the orders, never on the tables or the clock. |
| Settlement.CreditAllCompletes | src/lambda-payments-wallet/lambda.py:85-100 | The loop completes if and only if every order has a non-empty seller and a parseable amount. |
| Settlement.CreditAllAppend | src/lambda-payments-wallet/lambda.py:85-109 | Processing `a + b` is processing `a`, then `b` from where `a` left off, unless `a` already raised. There is no rollback. |
| Settlement.MarkDone | src/lambda-payments-wallet/lambda.py:125-129 | Only the checkout's event changes, and only its `is_payment_done` flag, which becomes true. |
| Settlement.MarkFailedEffect | src/lambda-payments-wallet/lambda.py:150-158 | Every queried order becomes FAILED with its other fields kept. Orders not queried are unchanged. |
| Settlement.Settle | src/lambda-payments-wallet/lambda.py:58-180 | An injected error raises before any lookup. No queried orders gives `processed_orders` 0 and no writes, whatever the status. SUCCESS with a missing event raises before any write. FAILED marks the orders and nothing else. Any other status writes nothing. Every report carries the message's id and status, and the number of orders. |
| Settlement.HandleRecord | src/lambda-payments-wallet/lambda.py:189-197 | An unreadable or invalid body raises without writes. A valid one is settled. |
| Settlement.UnreadableBatch | src/lambda-payments-wallet/lambda.py:189-208 | A batch of unreadable bodies writes nothing and reports every message id, in order. |
| Settlement.FailureKeepsEarlierWrites | src/lambda-payments-wallet/lambda.py:85-90 | When order `k` raises, the message fails with that order's exception. The credits and statuses of orders before `k` stay written, and `is_payment_done` is not set. |
| Settlement.SuccessSettles | src/lambda-payments-wallet/lambda.py:77-129 | A settled SUCCESS message had its event. Each merchant gains exactly its orders' amounts. Only `is_payment_done` changes in the events. Every queried order is SUCCESS. |
| Settlement.SettlingTwiceCreditsTwice | src/lambda-payments-wallet/lambda.py:92-109 | With no idempotence guard, settling the same SUCCESS message twice credits every merchant twice. |
| Settlement.RedeliveryRecredits | src/lambda-payments-wallet/lambda.py:85-109 | A message that fails at order `k`, then is redelivered, credits the orders before `k` twice. |
| Settlement.FailedMarksOrders | src/lambda-payments-wallet/lambda.py:144-158 | A FAILED message marks every queried order FAILED. It writes no wallet and no event, even when the event is missing, and reports the number of orders. |
| Psp.ChosenCode | src/lambda-payments-psp/lambda.py:50-53 | The failure code is the configured one when that is truthy, and otherwise one of the five `ERROR_CODES`. |
| Psp.BusinessCheck | src/lambda-payments-psp/lambda.py:50-61 | The failed-id set grows only by the request's own id, only when that id was not in it, and exactly when the answer is 200-failed. |
| Psp.Decide | src/lambda-payments-psp/lambda.py:26-61 | The same, for the whole decision on a decoded body. The server-error check comes first. |
| Psp.Handle | src/lambda-payments-psp/lambda.py:23-69 | Invalid JSON gets 400. Answers are 200, 400 or 500. A 400 never changes the set. The set grows by at most the request's id, and exactly when the answer is a simulated failure. |
| Psp.MissingFieldRejected | src/lambda-payments-psp/lambda.py:32-34 | A falsy `payment_id`, `amount` or `currency` is answered 400, and the set is unchanged. |
| Psp.ServerErrorFirst | src/lambda-payments-psp/lambda.py:45-48 | A configured server error for an id not yet failed adds the id and answers 500, even when a business error is also configured. |
| Psp.BusinessErrorFails | src/lambda-payments-psp/lambda.py:50-54 | A configured business error for an id not yet failed adds the id and answers 200 with status "failed" and the chosen code. |
| Psp.FailedIdIsPaid | src/lambda-payments-psp/lambda.py:45-61 | An id that has already failed is paid, whatever is configured. |
| Psp.ErrorCodeIffFailed | src/lambda-payments-psp/lambda.py:56-58 | A 200 body has `error_code` if and only if a code was chosen, which is exactly when its status is "failed". It echoes the payment id. |
| Psp.Serve | src/lambda-payments-psp/lambda.py:12 | Over the process's lifetime, each request gets one response, and the failed-id set never shrinks. |
| Psp.ServeResponse | src/lambda-payments-psp/lambda.py:12 | The response to request `i` is `handler` applied to the set the earlier requests left. |
| Psp.ServeMonotone | src/lambda-payments-psp/lambda.py:12 | The set after a prefix of the requests is contained in the set after any longer prefix. |
| Psp.OneFailurePerId | src/lambda-payments-psp/lambda.py:45-53 | A simulated failure is only ever given to an id not failed before, and two different requests with simulated failures carry different ids. |
| Saga.ExecutionReadsBack | src/lambda-payments-initializer/lambda.py:133-141 | The Execution message the initializer enqueues reads back in the executor as the checkout's id, total, currency, card and `simulate or {}`. |
| Saga.PlainPaymentSucceeds | src/lambda-payments-executor/lambda.py:100-145 | Without `simulate`, a message with a non-empty id, amount and currency is paid by the simulator. The executor then enqueues a SUCCESS Result message, which the settlement stage reads back with no error code. |
| Saga.EmptyFieldDeclined | src/lambda-payments-executor/lambda.py:143-145 | An empty id, amount or currency gets the simulator's 400. The executor turns that into a FAILED Result message with a null code. |
| Saga.AcceptedCheckoutIsPaid | src/lambda-payments-initializer/lambda.py:133-141 | A checkout the initializer accepted without `simulate`, with a non-empty id and currency, comes out of the executor as a SUCCESS Result message. |
| Saga.WrittenCheckoutSettles | src/lambda-payments-wallet/lambda.py:85-129 | A SUCCESS message for a written checkout settles it, provided its order ids are distinct and every seller account is non-empty. Every merchant gains exactly the amounts of its orders. |

## Left out

- I/O: DynamoDB, SQS and HTTP are pure map updates, an outbox sequence, and a given reply. The executor's 30-second timeout, `time.sleep` latency and `time.time()` are left out. The clock is a parameter `now`, read once per message; the source reads it once per order.
- Faults.SimulateError: the `latency` entry is not modelled, and it is read before `error`. A truthy latency that is a non-numeric string makes `float()` raise `ValueError`. A list or dict latency makes it raise `TypeError`. A negative latency makes `time.sleep` raise `ValueError`. In each case the source raises before `error` is looked at, while the model ignores the latency.
- Initializer.ResponseFor: a simulated error message that is not a string is carried as JSON. The model does not reproduce Python's `str()` of it.
- Checkout.ValidateAmount: accepts decimals in the form `[sign] digits [. digits] [e exponent]`. Python's `Decimal` also accepts surrounding whitespace, `_` separators, non-ASCII digits and `Infinity`, which the model rejects. In `validate_amount`, `NaN` is rejected by both, because `NaN < 0` raises `InvalidOperation`, which is caught at `lambda.py:73`. The pre-validation summary differs, as the next line says.
- Initializer.ScanItems: the pre-validation summary reads each amount with the same strict parser. `Decimal()` at `lambda.py:189` also reads `NaN`, `sNaN`, `Infinity` and the spellings the line above lists. Adding a quiet NaN or an infinity raises nothing, so the source keeps scanning where the model stops. Take `payment_orders: [{"amount": "NaN", ...}, 5]`. The source reaches `(5).get`, and its `AttributeError` is not caught at `lambda.py:191`. The exception escapes the handler with nothing written. The model stops the scan at the first item, and validation then answers 400. A `sNaN` amount, or infinities of both signs, raise `InvalidOperation` in the addition. That exception is caught and ends the source's summary, as the model's scan also ends.
- Decimals.Add: the sum is exact. The 28-digit rounding of Python's default decimal context is not modelled.
- Checkout.TotalAmount: the exponent limits of Python's default decimal context are not modelled. These are `Emax` 999999 and the subnormal rounding below `Etiny`. An amount such as "1e1000000" passes validation in both the source and the model. In the source, the pre-validation sum at `lambda.py:189` then raises `decimal.Overflow`, as it does for a JSON number amount of that size. That is not among the exceptions caught at `lambda.py:191`, so the handler raises with nothing written. The model instead writes the rows, enqueues the message and answers 202. The `total_amount` computed at `lambda.py:85` and `:104` would raise the same way. DynamoDB's own number range is not modelled either.
- Logging, business-event logs and OpenTelemetry spans have no control flow and are left out.
- DynamoDB `ClientError`s are not modelled; table writes always succeed. This leaves out the wallet stage's conversion to "Database operation failed" and the initializer's 500 "Service unavailable" for a failing put. Only the queue send can fail, as `Messages.SendOutcome`.
- Ledger.PutOrdersLastWins: `batch_writer` buffering, and its rejection of two puts for the same key, are not modelled, and the same holds for Initializer.WrittenOrders. The model applies the puts in order, so the later one wins. In the source, two orders with one `payment_order_id` in the same flush of up to 25 puts make `BatchWriteItem` fail with a `ClientError`. That happens after the event row is already written, and the handler answers 500 "Service unavailable".
- Settlement.Settle: the orders the `checkout_id-index` query returns are an input sequence. Index visibility lag and order are not modelled.
- Settlement.CreditOne: an `update_item` on an order id the table no longer holds is modelled as amending the queried row. DynamoDB would instead create a row with only the updated attributes.
- Settlement.Settle: `seller_info` is always a map, because the initializer always writes a dict. Decoding a `seller_info` stored as a JSON string is not modelled.
- Initializer.ProcessPayment: storing a float is not modelled. `credit_card_info` is an arbitrary dict. `json.loads` makes a Python `float` of any JSON number written with a fraction or an exponent, such as `{"limit": 99.5}`. boto3's serializer rejects floats, so the source's first `put_item` at `lambda.py:110-116` raises `TypeError` before anything is sent. That is neither a `ClientError` nor a `RuntimeError`, so `lambda.py:236-238` answers 500 "Internal server error". No event row, no order rows and no message are written. The model cannot tell `99.5` or `1.0` from an integer stored as a real. It writes both tables, enqueues the Execution message and answers 202. The same gap carries over to Initializer.Written, Initializer.AcceptsCheckout and Initializer.HandleValid.
- Json: numbers are exact reals, not the IEEE doubles `json.loads` produces. So "0.1" and "0.10000000000000001" are one set element in Python and two in the model. "1e-400" is falsy in Python, where it reads as 0.0, and truthy in the model. "1e400" reads as `inf` in Python and as an exact number in the model. This matters wherever a number is compared, tested for truth or echoed back: payment ids in the simulator's failed-id set, `simulate` flags such as `error`, numeric inputs echoed in validation details, and numbers stored in DynamoDB (the `Initializer.ProcessPayment:` line above).
- Psp.Handle: `random.choice` is the `pick` index parameter. `random.uniform` latency is left out. Payment ids are JSON values: `True` is identified with `1`, and a list or dict id raises on set membership, as in Python.
- Executor.Classify: a reply body that is not JSON is modelled as a missing body. It raises `RequestException`, as `requests` raises a `JSONDecodeError` that subclasses it.
- The aws_lambda_powertools batch processor is not part of this model beyond the per-record fold. Its failure of the whole batch when every record fails is not modelled.
- `checker.py` and `test_perf/locustfile.py` are load-generation scripts, not system behaviour, and are not part of this model.

=== FILE: base.dfy ===
/** Failure-carrying wrappers shared by every stage of the payment saga. */
module Base {

  /** A value that may be absent (Python `None`). */
  datatype Option<+T> = None | Some(value: T)

  /** Either a value or the error that stopped the computation. */
  datatype Result<+T, +E> = Ok(value: T) | Err(error: E)

  function Abs(x: int): nat
  {
    if x < 0 then -x else x
  }
}

=== FILE: batch.dfy ===
/**
  The partial-batch handling the two queue-driven stages share: records
  are handled one after another, each from the state the previous one
  left, and the ids of the records whose handler raised are collected and
  reported back so that only those are redelivered.
 */
module Batch {

  import opened Json

  /** An SQS record: its message id and what the handler is given. */
  datatype Record<R> = Record(messageId: string, input: R)

  /** One record's effect: the state after it and whether its handler raised. */
  datatype Step<S> = Step(state: S, raised: bool)

  /** A batch's effect: the state after it and the ids of the records that failed, in order. */
  datatype Outcome<S> = Outcome(state: S, failures: seq<string>)

  function Run<S, R>(handle: (S, R) -> Step<S>, state: S, records: seq<Record<R>>): (r: Outcome<S>)
    ensures |r.failures| <= |records|
    decreases |records|
  {
    if |records| == 0 then Outcome(state, [])
    else
      var before := Run(handle, state, records[..|records| - 1]);
      var last := records[|records| - 1];
      var step := handle(before.state, last.input);
      Outcome(step.state, before.failures + if step.raised then [last.messageId] else [])
  }

  /** Handling `a + b` is handling `a` and then `b` from where `a` left off; the failures concatenate. */
  lemma {:induction false} RunAppend<S, R>(handle: (S, R) -> Step<S>, state: S, a: seq<Record<R>>, b: seq<Record<R>>)
    ensures var p := Run(handle, state, a);
      var q := Run(handle, p.state, b);
      Run(handle, state, a + b) == Outcome(q.state, p.failures + q.failures)
    decreases |b|
  {
    if |b| > 0 {
      var n := |b| - 1;
      assert (a + b)[..|a + b| - 1] == a + b[..n];
      assert (a + b)[|a + b| - 1] == b[n];
      RunAppend(handle, state, a, b[..n]);
      var p := Run(handle, state, a);
      var q := Run(handle, p.state, b[..n]);
      assert p.failures + q.failures + (if handle(q.state, b[n].input).raised then [b[n].messageId] else [])
          == p.failures + (q.failures + if handle(q.state, b[n].input).raised then [b[n].messageId] else []);
    } else {
      assert a + b == a;
    }
  }

  /**
    Every reported id is the id of a record of the batch, and a batch whose
    records never raise reports nothing.
   */
  lemma {:induction false} FailuresFromBatch<S, R>(handle: (S, R) -> Step<S>, state: S, records: seq<Record<R>>)
    ensures forall k | 0 <= k < |Run(handle, state, records).failures| ::
      exists i | 0 <= i < |records| :: records[i].messageId == Run(handle, state, records).failures[k]
    ensures (forall s, x :: !handle(s, x).raised) ==> Run(handle, state, records).failures == []
    decreases |records|
  {
    if |records| > 0 {
      var n := |records| - 1;
      FailuresFromBatch(handle, state, records[..n]);
      var before := Run(handle, state, records[..n]);
      var r := Run(handle, state, records);
      var last := if handle(before.state, records[n].input).raised then [records[n].messageId] else [];
      assert records[..|records| - 1] == records[..n];
      assert r.failures == before.failures + last;
      forall k | 0 <= k < |r.failures|
        ensures exists i | 0 <= i < |records| :: records[i].messageId == r.failures[k]
      {
        if k < |before.failures| {
          var i :| 0 <= i < |records[..n]| && records[..n][i].messageId == before.failures[k];
          assert records[i] == records[..n][i];
          assert r.failures[k] == before.failures[k];
        } else {
          assert r.failures[k] == records[n].messageId;
        }
      }
      assert r == Run(handle, state, records);
    } else {
      assert Run(handle, state, records).failures == [];
    }
  }

  /**
    The batch handled from the front: the first record from the initial
    state, the rest from the state it left; its id leads the failures when
    it raised.
   */
  function Replay<S, R>(handle: (S, R) -> Step<S>, state: S, records: seq<Record<R>>): Outcome<S>
    decreases |records|
  {
    if |records| == 0 then Outcome(state, [])
    else
      var step := handle(state, records[0].input);
      var rest := Replay(handle, step.state, records[1..]);
      Outcome(rest.state, (if step.raised then [records[0].messageId] else []) + rest.failures)
  }

  /** Folding from the back and replaying from the front agree on the state and on the failures, in order. */
  lemma {:induction false} RunIsReplay<S, R>(handle: (S, R) -> Step<S>, state: S, records: seq<Record<R>>)
    ensures Run(handle, state, records) == Replay(handle, state, records)
    decreases |records|
  {
    if |records| > 0 {
      var step := handle(state, records[0].input);
      var first := if step.raised then [records[0].messageId] else [];
      assert records[..1] + records[1..] == records;
      RunAppend(handle, state, records[..1], records[1..]);
      assert records[..1][..0] == [];
      assert Run(handle, state, records[..1][..0]) == Outcome(state, []);
      assert Run(handle, state, records[..1]) == Outcome(step.state, [] + first);
      RunIsReplay(handle, step.state, records[1..]);
    } else {
      assert Run(handle, state, records) == Outcome(state, []);
    }
  }

  /** The ids of the records whose input satisfies `raises`, in batch order. */
  function FailingIds<R>(raises: R -> bool, records: seq<Record<R>>): seq<string>
    decreases |records|
  {
    if |records| == 0 then []
    else (if raises(records[0].input) then [records[0].messageId] else []) + FailingIds(raises, records[1..])
  }

  lemma {:induction false} ReplayFailures<S, R>(handle: (S, R) -> Step<S>, raises: R -> bool, state: S, records: seq<Record<R>>)
    requires forall s, x :: handle(s, x).raised == raises(x)
    ensures Replay(handle, state, records).failures == FailingIds(raises, records)
    decreases |records|
  {
    if |records| > 0 {
      ReplayFailures(handle, raises, handle(state, records[0].input).state, records[1..]);
    }
  }

  /**
    When whether a record raises depends on its input alone, the reported
    failures are exactly the ids of the raising records, in batch order.
   */
  lemma {:induction false} FailuresAreRaising<S, R>(handle: (S, R) -> Step<S>, raises: R -> bool, state: S, records: seq<Record<R>>)
    requires forall s, x :: handle(s, x).raised == raises(x)
    ensures Run(handle, state, records).failures == FailingIds(raises, records)
  {
    RunIsReplay(handle, state, records);
    ReplayFailures(handle, raises, state, records);
  }

  /** A handler over a queue's contents that appends one message when it does not raise, and none when it does. */
  ghost predicate AppendsUnlessRaised<T, R>(handle: (seq<T>, R) -> Step<seq<T>>, queue: seq<T>, input: R)
  {
    var step := handle(queue, input);
    |step.state| == |queue| + (if step.raised then 0 else 1) && step.state[..|queue|] == queue
  }

  /**
    With such a handler, a batch appends one message per record not
    reported as failed, after what the queue held.
   */
  lemma {:induction false} RunAppends<T, R>(handle: (seq<T>, R) -> Step<seq<T>>, queue: seq<T>, records: seq<Record<R>>)
    requires forall q, x :: AppendsUnlessRaised(handle, q, x)
    ensures var r := Run(handle, queue, records);
      |r.state| == |queue| + |records| - |r.failures| && r.state[..|queue|] == queue
    decreases |records|
  {
    if |records| > 0 {
      var n := |records| - 1;
      assert records[..|records| - 1] == records[..n];
      RunAppends(handle, queue, records[..n]);
      var before := Run(handle, queue, records[..n]);
      assert AppendsUnlessRaised(handle, before.state, records[n].input);
      var step := handle(before.state, records[n].input);
      assert Run(handle, queue, records) == Outcome(step.state, before.failures + if step.raised then [records[n].messageId] else []);
      assert step.state[..|queue|] == step.state[..|before.state|][..|queue|];
    } else {
      assert Run(handle, queue, records) == Outcome(queue, []);
    }
  }

  /** The `batchItemFailures` response. */
  function FailureReport(failures: seq<string>): (r: Json)
    ensures r.JObj? && "batchItemFailures" in r.fields && r.fields["batchItemFailures"].JArr?
    ensures |r.fields["batchItemFailures"].items| == |failures|
    ensures forall k | 0 <= k < |failures| ::
      r.fields["batchItemFailures"].items[k] == JObj(map["itemIdentifier" := JStr(failures[k])])
  {
    JObj(map["batchItemFailures" := JArr(seq(|failures|, k requires 0 <= k < |failures| =>
                                                JObj(map["itemIdentifier" := JStr(failures[k])])))])
  }
}

=== FILE: checkout.dfy ===
/**
  The checkout the initializer accepts: its model (buyer, card, orders),
  the amount check every order passes, the fields derived from the orders,
  and the model validation that turns a request body into a checkout or
  into a list of field-level errors.
 */
module Checkout {

  import opened Base
  import opened Text
  import opened Json
  import opened Decimals

  datatype Buyer = Buyer(userId: string, email: string)

  /** One order of a checkout; `amount` keeps the text the buyer sent. */
  datatype Order = Order(paymentOrderId: string, sellerAccount: string, amount: string, currency: string)

  datatype Checkout = Checkout(checkoutId: string, buyer: Buyer, creditCardInfo: map<string, Json>, orders: seq<Order>)

  // ---------------------------------------------------------------- amounts

  /**
    `validate_amount`: the text must read as a decimal that is not below
    zero; both failures give the same message.
   */
  function ValidateAmount(v: string): (r: Result<string, string>)
    ensures r.Ok? ==> r.value == v
    ensures r.Err? ==> r.error == "Invalid amount format: " + v
  {
    match Parse(v)
    case None => Err("Invalid amount format: " + v)
    case Some(d) => if IsNegative(d) then Err("Invalid amount format: " + v) else Ok(v)
  }

  /** An amount is accepted exactly when it reads as a decimal whose value is at least zero. */
  lemma {:induction false} ValidateAmountAccepts(v: string)
    ensures ValidateAmount(v).Ok? <==> Parse(v).Some? && Value(Parse(v).value) >= 0.0
  {
    if Parse(v).Some? {
      NegativeValue(Parse(v).value);
    }
  }

  /** The text of any decimal is accepted iff the decimal is not negative. */
  lemma {:induction false} ValidateAmountOfText(d: Decimal)
    ensures ValidateAmount(ToString(d)).Ok? <==> Value(d) >= 0.0
  {
    ParseToString(d);
    ValidateAmountAccepts(ToString(d));
  }

  predicate ValidAmounts(orders: seq<Order>)
  {
    forall i | 0 <= i < |orders| :: ValidateAmount(orders[i].amount).Ok?
  }

  /** The decimal an accepted amount denotes. */
  function AmountOf(o: Order): (d: Decimal)
    requires ValidateAmount(o.amount).Ok?
    ensures Value(d) >= 0.0
  {
    ValidateAmountAccepts(o.amount);
    Parse(o.amount).value
  }

  /** The arithmetic sum of the order amounts' values, as a reference. */
  ghost function AmountTotal(orders: seq<Order>): real
    requires ValidAmounts(orders)
  {
    if |orders| == 0 then 0.0
    else AmountTotal(orders[..|orders| - 1]) + Value(AmountOf(orders[|orders| - 1]))
  }

  /** `sum(Decimal(o.amount) for o in orders)`: Python starts the sum from the integer 0. */
  function SumAmounts(orders: seq<Order>): (r: Decimal)
    requires ValidAmounts(orders)
    ensures Value(r) == AmountTotal(orders)
    ensures Value(r) >= 0.0 && r.exp <= 0
  {
    if |orders| == 0 then Zero
    else Add(SumAmounts(orders[..|orders| - 1]), AmountOf(orders[|orders| - 1]))
  }

  // ---------------------------------------------------------------- derived fields

  /**
    `total_amount`: the text of the exact sum.  It reads back as that sum,
    is "0" for no orders, and would itself pass the amount check.
   */
  function TotalAmount(orders: seq<Order>): (r: string)
    requires ValidAmounts(orders)
    ensures Parse(r).Some? && Value(Parse(r).value) == AmountTotal(orders)
    ensures |orders| == 0 ==> r == "0"
    ensures ValidateAmount(r).Ok?
  {
    var sum := SumAmounts(orders);
    ParseToString(sum);
    ValidateAmountOfText(sum);
    ToString(sum)
  }

  /** `currency`: the first order's currency, "USD" when there are no orders. */
  function Currency(orders: seq<Order>): (r: string)
    ensures |orders| > 0 ==> r == orders[0].currency
    ensures |orders| == 0 ==> r == "USD"
  {
    if |orders| > 0 then orders[0].currency else "USD"
  }

  /** Orders after the first never change the currency. */
  lemma {:induction false} CurrencyIgnoresLater(orders: seq<Order>, later: seq<Order>)
    requires |orders| > 0
    ensures Currency(orders + later) == Currency(orders)
  {
    assert (orders + later)[0] == orders[0];
  }

  /** True when no order after position `i` has the same id as order `i`. */
  predicate LastWithId(orders: seq<Order>, i: int)
    requires 0 <= i < |orders|
  {
    forall j | i < j < |orders| :: orders[j].paymentOrderId != orders[i].paymentOrderId
  }

  /** The ids of a list of orders. */
  function Ids(orders: seq<Order>): set<string>
  {
    set i | 0 <= i < |orders| :: orders[i].paymentOrderId
  }

  /** The ids of a list are those of all but its last order, plus the last one's. */
  lemma {:induction false} IdsSnoc(orders: seq<Order>)
    requires |orders| > 0
    ensures Ids(orders) == Ids(orders[..|orders| - 1]) + {orders[|orders| - 1].paymentOrderId}
  {
    var init := orders[..|orders| - 1];
    forall k | k in Ids(orders)
      ensures k in Ids(init) + {orders[|orders| - 1].paymentOrderId}
    {
      var i :| 0 <= i < |orders| && orders[i].paymentOrderId == k;
      if i < |init| {
        assert init[i] == orders[i];
      }
    }
    forall k | k in Ids(init)
      ensures k in Ids(orders)
    {
      var i :| 0 <= i < |init| && init[i].paymentOrderId == k;
      assert orders[i] == init[i];
    }
  }

  /** `seller_info`: each order id mapped to its seller account, order by order. */
  function SellerInfo(orders: seq<Order>): map<string, string>
    decreases |orders|
  {
    if |orders| == 0 then map[]
    else
      var last := orders[|orders| - 1];
      SellerInfo(orders[..|orders| - 1])[last.paymentOrderId := last.sellerAccount]
  }

  /**
    `seller_info` has exactly the orders' ids as keys, and among orders
    sharing an id the later one's seller account wins.
   */
  lemma {:induction false} SellerInfoEffect(orders: seq<Order>)
    ensures SellerInfo(orders).Keys == Ids(orders)
    ensures forall i | 0 <= i < |orders| && LastWithId(orders, i) ::
      SellerInfo(orders)[orders[i].paymentOrderId] == orders[i].sellerAccount
    decreases |orders|
  {
    if |orders| > 0 {
      var init := orders[..|orders| - 1];
      var last := orders[|orders| - 1];
      var earlier := SellerInfo(init);
      var r := SellerInfo(orders);
      assert r == earlier[last.paymentOrderId := last.sellerAccount];
      SellerInfoEffect(init);
      IdsSnoc(orders);
      forall i | 0 <= i < |orders| && LastWithId(orders, i)
        ensures r[orders[i].paymentOrderId] == orders[i].sellerAccount
      {
        if i < |init| {
          assert init[i] == orders[i];
          assert orders[i].paymentOrderId != last.paymentOrderId;
          assert LastWithId(init, i);
          assert earlier[init[i].paymentOrderId] == init[i].sellerAccount;
        }
      }
    }
  }

  // ---------------------------------------------------------------- validation

  /** One step of an error location: a field name or a list index. */
  datatype LocPart = Field(name: string) | Item(index: nat)

  /** A field-level validation error: where, what, and the offending input. */
  datatype ValidationError = ValidationError(loc: seq<LocPart>, msg: string, input: Json)

  const FieldRequired := "Field required"
  const NotAString := "Input should be a valid string"
  const NotADict := "Input should be a valid dictionary"
  const NotAList := "Input should be a valid list"
  /** What pydantic puts before the text of a `ValueError` a validator raises. */
  const ValueErrorPrefix := "Value error, "

  function NotAModel(name: string): string
  {
    "Input should be a valid dictionary or instance of " + name
  }

  function ErrorsOf<T>(r: Result<T, seq<ValidationError>>): seq<ValidationError>
  {
    if r.Err? then r.error else []
  }

  /** A required `str` field of the dict `d` found at `at`. */
  function StrField(d: map<string, Json>, key: string, at: seq<LocPart>): (r: Result<string, seq<ValidationError>>)
    ensures r.Ok? <==> key in d && d[key].JStr?
    ensures r.Ok? ==> d[key] == JStr(r.value)
    ensures r.Err? ==> |r.error| == 1 && r.error[0].loc == at + [Field(key)]
  {
    if key !in d then Err([ValidationError(at + [Field(key)], FieldRequired, JObj(d))])
    else if d[key].JStr? then Ok(d[key].s)
    else Err([ValidationError(at + [Field(key)], NotAString, d[key])])
  }

  /** The JSON dict `j` carries the two fields of `b` as strings. */
  predicate CarriesBuyer(j: Json, b: Buyer)
  {
    j.JObj? && Get(j.fields, "user_id") == JStr(b.userId) && Get(j.fields, "email") == JStr(b.email)
  }

  /** `BuyerInfo` at `at`. */
  function ValidateBuyer(j: Json, at: seq<LocPart>): (r: Result<Buyer, seq<ValidationError>>)
    ensures r.Ok? <==> j.JObj? && Get(j.fields, "user_id").JStr? && Get(j.fields, "email").JStr?
    ensures r.Ok? ==> CarriesBuyer(j, r.value)
    ensures r.Err? ==> |r.error| > 0
  {
    if !j.JObj? then Err([ValidationError(at, NotAModel("BuyerInfo"), j)])
    else
      var user := StrField(j.fields, "user_id", at);
      var email := StrField(j.fields, "email", at);
      if user.Ok? && email.Ok? then Ok(Buyer(user.value, email.value))
      else Err(ErrorsOf(user) + ErrorsOf(email))
  }

  /** The JSON dict `j` carries the four fields of `o` as strings. */
  predicate Carries(j: Json, o: Order)
  {
    j.JObj?
    && Get(j.fields, "payment_order_id") == JStr(o.paymentOrderId)
    && Get(j.fields, "seller_account") == JStr(o.sellerAccount)
    && Get(j.fields, "amount") == JStr(o.amount)
    && Get(j.fields, "currency") == JStr(o.currency)
  }

  /** The error `validate_amount` turns into, at the amount's location. */
  function AmountError(at: seq<LocPart>, v: string): ValidationError
    requires ValidateAmount(v).Err?
  {
    ValidationError(at + [Field("amount")], ValueErrorPrefix + ValidateAmount(v).error, JStr(v))
  }

  /** The `amount` field of the order dict `d`: a string, then `validate_amount`. */
  function AmountField(d: map<string, Json>, at: seq<LocPart>): (r: Result<string, seq<ValidationError>>)
    ensures r.Ok? <==> "amount" in d && d["amount"].JStr? && ValidateAmount(d["amount"].s).Ok?
    ensures r.Ok? ==> d["amount"] == JStr(r.value)
    ensures r.Err? ==> |r.error| > 0
    ensures "amount" in d && d["amount"].JStr? && ValidateAmount(d["amount"].s).Err? ==>
      r == Err([AmountError(at, d["amount"].s)])
  {
    var text := StrField(d, "amount", at);
    if text.Err? then text
    else if ValidateAmount(text.value).Err? then Err([AmountError(at, text.value)])
    else text
  }

  /** `PaymentOrder` at `at`: four string fields, the amount then checked. */
  function ValidateOrder(j: Json, at: seq<LocPart>): (r: Result<Order, seq<ValidationError>>)
    ensures r.Ok? ==> Carries(j, r.value) && ValidateAmount(r.value.amount).Ok?
    ensures r.Err? ==> |r.error| > 0
    ensures j.JObj? && "amount" in j.fields && j.fields["amount"].JStr? && ValidateAmount(j.fields["amount"].s).Err? ==>
      r.Err? && AmountError(at, j.fields["amount"].s) in r.error
  {
    if !j.JObj? then Err([ValidationError(at, NotAModel("PaymentOrder"), j)])
    else
      var id := StrField(j.fields, "payment_order_id", at);
      var seller := StrField(j.fields, "seller_account", at);
      var amount := AmountField(j.fields, at);
      var currency := StrField(j.fields, "currency", at);
      if id.Ok? && seller.Ok? && amount.Ok? && currency.Ok? then
        Ok(Order(id.value, seller.value, amount.value, currency.value))
      else Err(ErrorsOf(id) + ErrorsOf(seller) + ErrorsOf(amount) + ErrorsOf(currency))
  }

  /** Where item `i` of `payment_orders` is reported. */
  function OrderAt(i: nat): seq<LocPart>
  {
    [Field("payment_orders"), Item(i)]
  }

  /** The outcome for a list, from the outcome for all but its last item and for that item. */
  function Appended(init: Result<seq<Order>, seq<ValidationError>>, last: Result<Order, seq<ValidationError>>)
    : (r: Result<seq<Order>, seq<ValidationError>>)
    ensures r.Ok? <==> init.Ok? && last.Ok?
    ensures r.Ok? ==> r.value == init.value + [last.value]
    ensures r.Err? ==> r.error == ErrorsOf(init) + ErrorsOf(last)
  {
    if init.Ok? && last.Ok? then Ok(init.value + [last.value]) else Err(ErrorsOf(init) + ErrorsOf(last))
  }

  /** The items of `payment_orders`, every item checked and the errors kept in item order. */
  function ValidateOrderList(items: seq<Json>): (r: Result<seq<Order>, seq<ValidationError>>)
    ensures r.Ok? ==> |r.value| == |items| && ValidAmounts(r.value)
    ensures r.Ok? ==> forall i | 0 <= i < |items| :: Carries(items[i], r.value[i])
    ensures r.Err? ==> |r.error| > 0
  {
    if |items| == 0 then Ok([])
    else
      var n := |items| - 1;
      var init := ValidateOrderList(items[..n]);
      var r := Appended(init, ValidateOrder(items[n], OrderAt(n)));
      if r.Ok? then
        assert forall i | 0 <= i < n :: r.value[i] == init.value[i] && items[i] == items[..n][i];
        r
      else r
  }

  function BuyerField(body: map<string, Json>): (r: Result<Buyer, seq<ValidationError>>)
    ensures r.Ok? ==> CarriesBuyer(Get(body, "buyer_info"), r.value)
    ensures r.Err? ==> |r.error| > 0
  {
    if "buyer_info" !in body then Err([ValidationError([Field("buyer_info")], FieldRequired, JObj(body))])
    else ValidateBuyer(body["buyer_info"], [Field("buyer_info")])
  }

  function CardField(body: map<string, Json>): (r: Result<map<string, Json>, seq<ValidationError>>)
    ensures r.Ok? ==> Get(body, "credit_card_info") == JObj(r.value)
    ensures r.Err? ==> |r.error| > 0
  {
    if "credit_card_info" !in body then Err([ValidationError([Field("credit_card_info")], FieldRequired, JObj(body))])
    else if body["credit_card_info"].JObj? then Ok(body["credit_card_info"].fields)
    else Err([ValidationError([Field("credit_card_info")], NotADict, body["credit_card_info"])])
  }

  function OrdersField(body: map<string, Json>): (r: Result<seq<Order>, seq<ValidationError>>)
    ensures r.Ok? ==> ValidAmounts(r.value)
    ensures r.Ok? ==> (Get(body, "payment_orders").JArr?
      && |Get(body, "payment_orders").items| == |r.value|
      && forall i | 0 <= i < |r.value| :: Carries(Get(body, "payment_orders").items[i], r.value[i]))
    ensures r.Err? ==> |r.error| > 0
  {
    if "payment_orders" !in body then Err([ValidationError([Field("payment_orders")], FieldRequired, JObj(body))])
    else if body["payment_orders"].JArr? then ValidateOrderList(body["payment_orders"].items)
    else Err([ValidationError([Field("payment_orders")], NotAList, body["payment_orders"])])
  }

  /**
    `PaymentEvent.model_validate(body)`: the four fields in declaration
    order; keys the model does not name (such as `simulate`) are ignored.
   */
  function Validate(body: map<string, Json>): (r: Result<Checkout, seq<ValidationError>>)
    ensures r.Ok? ==> ValidAmounts(r.value.orders)
    ensures r.Ok? ==> Get(body, "checkout_id") == JStr(r.value.checkoutId)
    ensures r.Ok? ==> CarriesBuyer(Get(body, "buyer_info"), r.value.buyer)
    ensures r.Ok? ==> Get(body, "credit_card_info") == JObj(r.value.creditCardInfo)
    ensures r.Ok? ==> (Get(body, "payment_orders").JArr?
      && |Get(body, "payment_orders").items| == |r.value.orders|
      && forall i | 0 <= i < |r.value.orders| :: Carries(Get(body, "payment_orders").items[i], r.value.orders[i]))
    ensures r.Err? ==> |r.error| > 0
  {
    var id := StrField(body, "checkout_id", []);
    var buyer := BuyerField(body);
    var card := CardField(body);
    var orders := OrdersField(body);
    if id.Ok? && buyer.Ok? && card.Ok? && orders.Ok? then
      Ok(Checkout(id.value, buyer.value, card.value, orders.value))
    else Err(ErrorsOf(id) + ErrorsOf(buyer) + ErrorsOf(card) + ErrorsOf(orders))
  }

  // ---------------------------------------------------------------- model_dump

  function BuyerJson(b: Buyer): Json
  {
    JObj(map["user_id" := JStr(b.userId), "email" := JStr(b.email)])
  }

  function OrderJson(o: Order): Json
  {
    JObj(map["payment_order_id" := JStr(o.paymentOrderId), "seller_account" := JStr(o.sellerAccount),
             "amount" := JStr(o.amount), "currency" := JStr(o.currency)])
  }

  function OrdersJson(orders: seq<Order>): (r: seq<Json>)
    ensures |r| == |orders| && forall i | 0 <= i < |orders| :: r[i] == OrderJson(orders[i])
  {
    seq(|orders|, i requires 0 <= i < |orders| => OrderJson(orders[i]))
  }

  /** The keys of a request body the checkout model reads. */
  const ModelKeys: set<string> := {"checkout_id", "buyer_info", "credit_card_info", "payment_orders"}

  function CheckoutFields(c: Checkout): map<string, Json>
  {
    map["checkout_id" := JStr(c.checkoutId), "buyer_info" := BuyerJson(c.buyer),
        "credit_card_info" := JObj(c.creditCardInfo), "payment_orders" := JArr(OrdersJson(c.orders))]
  }

  /** `payment.model_dump()`. */
  function CheckoutJson(c: Checkout): Json
  {
    JObj(CheckoutFields(c))
  }

  /** A dumped order validates back to itself when its amount is acceptable. */
  lemma {:induction false} ValidateOrderDump(o: Order, at: seq<LocPart>)
    requires ValidateAmount(o.amount).Ok?
    ensures ValidateOrder(OrderJson(o), at) == Ok(o)
  {
  }

  lemma {:induction false} ValidateOrderListDump(orders: seq<Order>)
    requires ValidAmounts(orders)
    ensures ValidateOrderList(OrdersJson(orders)) == Ok(orders)
    decreases |orders|
  {
    if |orders| > 0 {
      var n := |orders| - 1;
      var init := orders[..n];
      var items := OrdersJson(orders);
      assert items[..n] == OrdersJson(init);
      ValidateOrderListDump(init);
      ValidateOrderDump(orders[n], OrderAt(n));
      assert items[n] == OrderJson(orders[n]);
      assert ValidateOrderList(items) == Appended(Ok(init), Ok(orders[n]));
      assert init + [orders[n]] == orders;
    }
  }

  /**
    Dumping a checkout whose amounts are acceptable and validating the dump,
    with any keys the model does not read added, gives the checkout back.
   */
  lemma {:induction false} ValidateDump(c: Checkout, extra: map<string, Json>)
    requires ValidAmounts(c.orders)
    requires extra.Keys !! ModelKeys
    ensures Validate(CheckoutFields(c) + extra) == Ok(c)
  {
    var body := CheckoutFields(c) + extra;
    assert "checkout_id" !in extra && "buyer_info" !in extra;
    assert "credit_card_info" !in extra && "payment_orders" !in extra;
    assert StrField(body, "checkout_id", []) == Ok(c.checkoutId);
    assert BuyerField(body) == Ok(c.buyer);
    assert CardField(body) == Ok(c.creditCardInfo);
    ValidateOrderListDump(c.orders);
    assert OrdersField(body) == Ok(c.orders);
  }

  lemma {:induction false} ValidateDumpPlain(c: Checkout)
    requires ValidAmounts(c.orders)
    ensures Validate(CheckoutFields(c)) == Ok(c)
  {
    ValidateDump(c, map[]);
    assert CheckoutFields(c) + map[] == CheckoutFields(c);
  }

  /**
    An order whose amount text fails the amount check makes the whole body
    fail, and the failure is reported at `payment_orders.<i>.amount` with
    the amount's own message.
   */
  lemma {:induction false} BadAmountReported(items: seq<Json>, i: nat, v: string)
    requires i < |items| && items[i].JObj? && Get(items[i].fields, "amount") == JStr(v)
    requires ValidateAmount(v).Err?
    ensures ValidateOrderList(items).Err?
    ensures AmountError(OrderAt(i), v) in ValidateOrderList(items).error
    decreases |items|
  {
    var n := |items| - 1;
    var init := ValidateOrderList(items[..n]);
    var last := ValidateOrder(items[n], OrderAt(n));
    assert ValidateOrderList(items) == Appended(init, last);
    if i < n {
      assert items[..n][i] == items[i];
      BadAmountReported(items[..n], i, v);
      assert AmountError(OrderAt(i), v) in ErrorsOf(init);
    } else {
      assert "amount" in items[i].fields;
      assert AmountError(OrderAt(i), v) in ErrorsOf(last);
    }
  }

  lemma {:induction false} BadAmountRejectsBody(body: map<string, Json>, i: nat, v: string)
    requires "payment_orders" in body && body["payment_orders"].JArr?
    requires i < |body["payment_orders"].items|
    requires var item := body["payment_orders"].items[i]; item.JObj? && Get(item.fields, "amount") == JStr(v)
    requires ValidateAmount(v).Err?
    ensures Validate(body).Err? && AmountError(OrderAt(i), v) in Validate(body).error
  {
    BadAmountReported(body["payment_orders"].items, i, v);
    assert OrdersField(body) == ValidateOrderList(body["payment_orders"].items);
  }

  // ---------------------------------------------------------------- error details

  function LocText(p: LocPart): string
  {
    match p
    case Field(name) => name
    case Item(index) => NatToString(index)
  }

  /** One entry of `format_validation_errors`. */
  function Detail(e: ValidationError): Json
  {
    JObj(map["field" := JStr(Join(".", seq(|e.loc|, k requires 0 <= k < |e.loc| => LocText(e.loc[k])))),
             "message" := JStr(RemoveAll(e.msg, ValueErrorPrefix)),
             "value" := e.input])
  }

  /** `format_validation_errors`: one detail per error, in the same order. */
  function FormatValidationErrors(errors: seq<ValidationError>): (r: seq<Json>)
    ensures |r| == |errors| && forall i | 0 <= i < |errors| :: r[i] == Detail(errors[i])
    ensures forall i | 0 <= i < |errors| ::
      r[i].JObj? && r[i].fields.Keys == {"field", "message", "value"} && r[i].fields["value"] == errors[i].input
  {
    seq(|errors|, i requires 0 <= i < |errors| => Detail(errors[i]))
  }

  /**
    The detail of a rejected amount names the field `payment_orders.<i>.amount`
    and reads "Invalid amount format: <v>" when the amount text holds no
    "Value error, " of its own.
   */
  lemma {:induction false} AmountDetail(i: nat, v: string)
    requires ValidateAmount(v).Err? && !Occurs(v, ValueErrorPrefix)
    ensures Detail(AmountError(OrderAt(i), v)) == JObj(map[
      "field" := JStr("payment_orders" + "." + NatToString(i) + "." + "amount"),
      "message" := JStr("Invalid amount format: " + v),
      "value" := JStr(v)])
  {
    var e := AmountError(OrderAt(i), v);
    var parts := seq(|e.loc|, k requires 0 <= k < |e.loc| => LocText(e.loc[k]));
    var id := NatToString(i);
    assert parts == ["payment_orders", id, "amount"];
    assert parts[..2] == ["payment_orders", id];
    assert parts[..2][..1] == ["payment_orders"];
    assert Join(".", parts[..2][..1]) == "payment_orders";
    assert Join(".", parts[..2]) == "payment_orders" + "." + id;
    assert Join(".", parts) == "payment_orders" + "." + id + "." + "amount";
    var prefix := "Invalid amount format: ";
    assert forall k | 0 <= k < |prefix| :: prefix[k] != 'V';
    AbsentAfterPrefix(prefix, v, ValueErrorPrefix);
    RemoveAllLeading(ValueErrorPrefix, prefix + v);
    RemoveAllAbsent(prefix + v, ValueErrorPrefix);
  }

  /** No field name on the location holds a dot (list indices never do). */
  predicate DotFree(loc: seq<LocPart>)
  {
    forall k | 0 <= k < |loc| :: loc[k].Field? ==> '.' !in loc[k].name
  }

  /**
    What one entry of `format_validation_errors` holds: exactly the keys
    `field`, `message` and `value`; the value is the offending input; the
    message is the error's text, with pydantic's "Value error, " taken off
    the front when the rest holds no other; and the field, split at its
    dots, gives back the location step by step.
   */
  lemma {:induction false} DetailOf(e: ValidationError)
    ensures Detail(e).JObj? && Detail(e).fields.Keys == {"field", "message", "value"}
    ensures Detail(e).fields["value"] == e.input
    ensures !Occurs(e.msg, ValueErrorPrefix) ==> Detail(e).fields["message"] == JStr(e.msg)
    ensures StartsWith(e.msg, ValueErrorPrefix) && !Occurs(e.msg[|ValueErrorPrefix|..], ValueErrorPrefix) ==>
      Detail(e).fields["message"] == JStr(e.msg[|ValueErrorPrefix|..])
    ensures Detail(e).fields["field"].JStr?
    ensures |e.loc| > 0 && DotFree(e.loc) ==>
      var pieces := Split(Detail(e).fields["field"].s, '.');
      |pieces| == |e.loc| && forall k | 0 <= k < |e.loc| :: pieces[k] == LocText(e.loc[k])
  {
    var parts := seq(|e.loc|, k requires 0 <= k < |e.loc| => LocText(e.loc[k]));
    if !Occurs(e.msg, ValueErrorPrefix) {
      RemoveAllAbsent(e.msg, ValueErrorPrefix);
    }
    if StartsWith(e.msg, ValueErrorPrefix) {
      var rest := e.msg[|ValueErrorPrefix|..];
      assert e.msg == ValueErrorPrefix + rest;
      RemoveAllLeading(ValueErrorPrefix, rest);
      if !Occurs(rest, ValueErrorPrefix) {
        RemoveAllAbsent(rest, ValueErrorPrefix);
      }
    }
    if |e.loc| > 0 && DotFree(e.loc) {
      forall k | 0 <= k < |parts|
        ensures '.' !in parts[k]
      {
        if e.loc[k].Item? {
          var digits := NatToString(e.loc[k].index);
          assert forall j | 0 <= j < |digits| :: IsDigit(digits[j]);
        }
      }
      assert "." == ['.'];
      SplitJoin('.', parts);
    }
  }

  /** Every entry of the formatted list is the detail of the error at the same position, as `DetailOf` describes it. */
  lemma {:induction false} FormattedErrors(errors: seq<ValidationError>, i: nat)
    requires i < |errors|
    ensures var r := FormatValidationErrors(errors);
      i < |r| && r[i].JObj? && r[i].fields.Keys == {"field", "message", "value"}
      && r[i].fields["value"] == errors[i].input
      && (!Occurs(errors[i].msg, ValueErrorPrefix) ==> r[i].fields["message"] == JStr(errors[i].msg))
      && (StartsWith(errors[i].msg, ValueErrorPrefix) && !Occurs(errors[i].msg[|ValueErrorPrefix|..], ValueErrorPrefix) ==>
          r[i].fields["message"] == JStr(errors[i].msg[|ValueErrorPrefix|..]))
      && r[i].fields["field"].JStr?
      && (|errors[i].loc| > 0 && DotFree(errors[i].loc) ==>
          |Split(r[i].fields["field"].s, '.')| == |errors[i].loc|
          && forall k | 0 <= k < |errors[i].loc| :: Split(r[i].fields["field"].s, '.')[k] == LocText(errors[i].loc[k]))
  {
    DetailOf(errors[i]);
  }
}

=== FILE: decimals.dfy ===
/**
  Python `decimal.Decimal` as the stages use it: construction from a string,
  exact addition, sign test and `str()`.  A decimal is a signed coefficient
  and a power-of-ten exponent, exactly as Python keeps it, so that `str()`
  reproduces trailing zeros ("50.00" stays "50.00").
 */
module Decimals {

  import opened Base
  import opened Text

  /** The number coef * 10^exp. */
  datatype Decimal = Decimal(coef: int, exp: int)

  const Zero: Decimal := Decimal(0, 0)

  /** 10^e as a real, for any integer e. */
  function Scale(e: int): (r: real)
    ensures r > 0.0
    decreases Abs(e)
  {
    if e == 0 then 1.0
    else if e > 0 then 10.0 * Scale(e - 1)
    else Scale(e + 1) / 10.0
  }

  function Value(d: Decimal): real
  {
    d.coef as real * Scale(d.exp)
  }

  // ---------------------------------------------------------------- parsing

  /**
    Where a left-to-right reading of a numeric string stands: inside the
    mantissa (the digits so far as one integer, how many of them follow the
    point, whether the point and a digit have been seen), inside the
    exponent after the mark, or rejected.
   */
  datatype Reading =
    | InMantissa(coef: nat, fraction: nat, point: bool, digit: bool)
    | InExponent(coef: nat, fraction: nat, negative: bool, magnitude: nat, sign: bool, digit: bool)
    | Rejected

  const Start: Reading := InMantissa(0, 0, false, false)

  predicate IsExponentMark(c: char)
  {
    c == 'e' || c == 'E'
  }

  /** The reading after one more character. */
  function Step(r: Reading, c: char): Reading
  {
    match r
    case InMantissa(coef, fraction, point, digit) =>
      if IsDigit(c) then InMantissa(10 * coef + DigitOf(c), if point then fraction + 1 else fraction, point, true)
      else if c == '.' && !point then InMantissa(coef, fraction, true, digit)
      else if IsExponentMark(c) && digit then InExponent(coef, fraction, false, 0, false, false)
      else Rejected
    case InExponent(coef, fraction, negative, magnitude, sign, digit) =>
      if IsDigit(c) then InExponent(coef, fraction, negative, 10 * magnitude + DigitOf(c), sign, true)
      else if (c == '+' || c == '-') && !sign && !digit then InExponent(coef, fraction, c == '-', magnitude, true, false)
      else Rejected
    case Rejected => Rejected
  }

  /** The reading after every character of `s`, starting from `r`. */
  function Run(r: Reading, s: string): Reading
  {
    if |s| == 0 then r else Step(Run(r, s[..|s| - 1]), s[|s| - 1])
  }

  /**
    The decimal a complete reading denotes: the mantissa needs a digit, and
    an exponent mark needs exponent digits after it.
   */
  function Finish(r: Reading): Option<Decimal>
  {
    match r
    case InMantissa(coef, fraction, _, digit) =>
      if digit then Some(Decimal(coef, -(fraction as int))) else None
    case InExponent(coef, fraction, negative, magnitude, _, digit) =>
      var shift: int := if negative then -(magnitude as int) else magnitude;
      if digit then Some(Decimal(coef, shift - fraction)) else None
    case Rejected => None
  }

  /** `digits [. [digits]]` or `. digits`, then optionally `(e|E) [+|-] digits`. */
  function ParseUnsigned(body: string): Option<Decimal>
  {
    Finish(Run(Start, body))
  }

  /**
    `Decimal(s)` for the finite numeric strings `[sign] digits [. digits]
    [(e|E) [sign] digits]`; `None` stands for `InvalidOperation`.
   */
  function Parse(s: string): Option<Decimal>
  {
    var negative := |s| > 0 && s[0] == '-';
    var body := if |s| > 0 && (s[0] == '+' || s[0] == '-') then s[1..] else s;
    match ParseUnsigned(body)
    case None => None
    case Some(parsed) => Some(if negative then Decimal(-parsed.coef, parsed.exp) else parsed)
  }

  // ---------------------------------------------------------------- str()

  /** Plain notation with `k` digits after the point. */
  function Plain(digits: string, k: nat): string
  {
    if k == 0 then digits
    else if |digits| > k then digits[..|digits| - k] + ("." + digits[|digits| - k..])
    else "0" + ("." + (Zeros(k - |digits|) + digits))
  }

  /** The mantissa of scientific notation: one digit, then the rest after a point. */
  function SciMantissa(digits: string): string
    requires |digits| >= 1
  {
    if |digits| == 1 then digits else digits[..1] + ("." + digits[1..])
  }

  /** The signed exponent of scientific notation, as Python's `%+d`. */
  function ExponentText(adjusted: int): string
  {
    (if adjusted >= 0 then "+" else "-") + NatToString(Abs(adjusted))
  }

  /** Scientific notation: one digit before the point and a signed exponent. */
  function Scientific(digits: string, adjusted: int): string
    requires |digits| >= 1
  {
    SciMantissa(digits) + ("E" + ExponentText(adjusted))
  }

  function UnsignedString(digits: string, exp: int): string
    requires |digits| >= 1
  {
    var adjusted := exp + |digits| - 1;
    if exp <= 0 && adjusted >= -6 then Plain(digits, -exp) else Scientific(digits, adjusted)
  }

  /** Python's `str(Decimal)` (to-scientific-string). */
  function ToString(d: Decimal): (s: string)
    ensures |s| > 0
    ensures s[0] == '-' <==> d.coef < 0
    ensures d.coef < 0 ==> |s| > 1 && IsDigit(s[1])
    ensures d.coef >= 0 ==> IsDigit(s[0])
  {
    UnsignedStringStartsWithDigit(NatToString(Abs(d.coef)), d.exp);
    (if d.coef < 0 then "-" else "") + UnsignedString(NatToString(Abs(d.coef)), d.exp)
  }

  // ---------------------------------------------------------------- arithmetic

  /** Exact `a + b`: the result keeps the smaller exponent, as Python does. */
  function Add(a: Decimal, b: Decimal): (r: Decimal)
    ensures Value(r) == Value(a) + Value(b)
    ensures r.exp == if a.exp <= b.exp then a.exp else b.exp
  {
    var e := if a.exp <= b.exp then a.exp else b.exp;
    RescaleValue(a.coef, e, a.exp - e);
    RescaleValue(b.coef, e, b.exp - e);
    var x, y := a.coef * Pow10(a.exp - e), b.coef * Pow10(b.exp - e);
    assert (x + y) as real * Scale(e) == x as real * Scale(e) + y as real * Scale(e);
    Decimal(x + y, e)
  }

  /** `d < 0` */
  predicate IsNegative(d: Decimal)
  {
    d.coef < 0
  }

  // ---------------------------------------------------------------- lemmas

  lemma {:induction false} ScaleSucc(e: int)
    ensures Scale(e + 1) == 10.0 * Scale(e)
  {
  }

  /** Raising the exponent by k multiplies the scale by 10^k. */
  lemma {:induction false} ScaleShift(e: int, k: nat)
    ensures Scale(e + k) == Scale(e) * Pow10(k) as real
    decreases k
  {
    if k > 0 {
      var j := k - 1;
      ScaleShift(e, j);
      assert e + j + 1 == e + k;
      ScaleSucc(e + j);
      assert Pow10(k) as real == 10.0 * Pow10(j) as real;
      ShiftTen(Scale(e), Pow10(j) as real);
    }
  }

  lemma {:induction false} ShiftTen(s: real, p: real)
    ensures 10.0 * (s * p) == s * (10.0 * p)
  {
  }

  lemma {:induction false} CastProduct(x: int, y: int)
    ensures (x * y) as real == x as real * y as real
  {
  }

  lemma {:induction false} Reassociate(x: real, y: real, z: real)
    ensures (x * y) * z == x * (z * y)
  {
  }

  /** Multiplying the coefficient by 10^k and lowering the exponent by k keeps the value. */
  lemma {:induction false} RescaleValue(c: int, e: int, k: nat)
    ensures Value(Decimal(c * Pow10(k), e)) == Value(Decimal(c, e + k))
  {
    ScaleShift(e, k);
    CastProduct(c, Pow10(k));
    Reassociate(c as real, Pow10(k) as real, Scale(e));
  }

  lemma {:induction false} NegativeValue(d: Decimal)
    ensures IsNegative(d) <==> Value(d) < 0.0
  {
  }

  // ---------------------------------------------------------------- round trip

  /** Reading a concatenation reads the left part, then the right part. */
  lemma {:induction false} RunConcat(r: Reading, a: string, b: string)
    ensures Run(r, a + b) == Run(Run(r, a), b)
    decreases |b|
  {
    if |b| == 0 {
      assert a + b == a;
    } else {
      assert (a + b)[..|a + b| - 1] == a + b[..|b| - 1];
      assert (a + b)[|a + b| - 1] == b[|b| - 1];
      RunConcat(r, a, b[..|b| - 1]);
    }
  }

  lemma {:induction false} RunOne(r: Reading, c: char)
    ensures Run(r, [c]) == Step(r, c)
  {
    assert [c][..0] == [];
  }

  /** Mantissa digits extend the coefficient, and count as fraction digits after the point. */
  lemma {:induction false} RunMantissaDigits(coef: nat, fraction: nat, point: bool, digit: bool, s: string)
    requires AllDigits(s)
    ensures Run(InMantissa(coef, fraction, point, digit), s)
         == InMantissa(coef * Pow10(|s|) + DigitsValue(s), if point then fraction + |s| else fraction, point, digit || |s| > 0)
    decreases |s|
  {
    if |s| > 0 {
      var init := s[..|s| - 1];
      AllDigitsSlice(s, 0, |s| - 1);
      assert s[0..|s| - 1] == init;
      RunMantissaDigits(coef, fraction, point, digit, init);
      ShiftStep(coef, Pow10(|init|), DigitsValue(init), DigitOf(s[|s| - 1]));
    }
  }

  /** Exponent digits extend the exponent's magnitude. */
  lemma {:induction false} RunExponentDigits(coef: nat, fraction: nat, negative: bool, magnitude: nat, sign: bool, digit: bool, s: string)
    requires AllDigits(s)
    ensures Run(InExponent(coef, fraction, negative, magnitude, sign, digit), s)
         == InExponent(coef, fraction, negative, magnitude * Pow10(|s|) + DigitsValue(s), sign, digit || |s| > 0)
    decreases |s|
  {
    if |s| > 0 {
      var init := s[..|s| - 1];
      AllDigitsSlice(s, 0, |s| - 1);
      assert s[0..|s| - 1] == init;
      RunExponentDigits(coef, fraction, negative, magnitude, sign, digit, init);
      ShiftStep(magnitude, Pow10(|init|), DigitsValue(init), DigitOf(s[|s| - 1]));
    }
  }

  /** Digits alone, from the start. */
  lemma {:induction false} ReadWhole(a: string)
    requires AllDigits(a)
    ensures Run(Start, a) == InMantissa(DigitsValue(a), 0, false, |a| > 0)
  {
    RunMantissaDigits(0, 0, false, false, a);
  }

  /** A point and fraction digits after the whole part. */
  lemma {:induction false} ReadFraction(coef: nat, digit: bool, b: string)
    requires AllDigits(b)
    ensures Run(InMantissa(coef, 0, false, digit), "." + b) == InMantissa(coef * Pow10(|b|) + DigitsValue(b), |b|, true, digit || |b| > 0)
  {
    var r := InMantissa(coef, 0, false, digit);
    RunConcat(r, ".", b);
    RunOne(r, '.');
    RunMantissaDigits(coef, 0, true, digit, b);
  }

  /** Digits, a point, digits. */
  lemma {:induction false} ReadPointed(a: string, b: string)
    requires AllDigits(a) && AllDigits(b)
    ensures Run(Start, a + ("." + b)) == InMantissa(DigitsValue(a) * Pow10(|b|) + DigitsValue(b), |b|, true, |a| > 0 || |b| > 0)
  {
    RunConcat(Start, a, "." + b);
    ReadWhole(a);
    ReadFraction(DigitsValue(a), |a| > 0, b);
  }

  /** Plain notation reads back as its digits' value, with `k` fraction digits. */
  lemma {:induction false} ReadPlain(digits: string, k: nat)
    requires |digits| >= 1 && AllDigits(digits)
    ensures Run(Start, Plain(digits, k)) == InMantissa(DigitsValue(digits), k, k > 0, true)
  {
    if k == 0 {
      RunMantissaDigits(0, 0, false, false, digits);
    } else if |digits| > k {
      ReadSplit(digits, k);
    } else {
      ReadPadded(digits, k);
    }
  }

  /** The point inside the digits. */
  lemma {:induction false} ReadSplit(digits: string, k: nat)
    requires AllDigits(digits) && 0 < k < |digits|
    ensures Run(Start, Plain(digits, k)) == InMantissa(DigitsValue(digits), k, k > 0, true)
  {
    var n := |digits| - k;
    var a, b := digits[..n], digits[n..];
    AllDigitsSplit(digits, n);
    DigitsValueConcat(a, b);
    ReadPointedAs(a, b, DigitsValue(digits), k);
  }

  /** `ReadPointed` with the value and fraction length it reaches named by the caller. */
  lemma {:induction false} ReadPointedAs(a: string, b: string, value: nat, count: nat)
    requires AllDigits(a) && AllDigits(b) && |a| > 0 && |b| > 0
    requires value == DigitsValue(a) * Pow10(|b|) + DigitsValue(b) && count == |b|
    ensures Run(Start, a + ("." + b)) == InMantissa(value, count, count > 0, true)
  {
    ReadPointed(a, b);
  }

  /** "0." and zeros before the digits. */
  lemma {:induction false} ReadPadded(digits: string, k: nat)
    requires AllDigits(digits) && 1 <= |digits| <= k
    ensures Run(Start, Plain(digits, k)) == InMantissa(DigitsValue(digits), k, k > 0, true)
  {
    ZerosPrefix(k - |digits|, digits);
    ReadLeadingZero(Zeros(k - |digits|) + digits, DigitsValue(digits), k);
  }

  /** "0." and then digits. */
  lemma {:induction false} ReadLeadingZero(b: string, value: nat, count: nat)
    requires AllDigits(b) && |b| > 0 && value == DigitsValue(b) && count == |b|
    ensures Run(Start, "0" + ("." + b)) == InMantissa(value, count, count > 0, true)
  {
    assert AllDigits("0") && DigitsValue("0") == 0;
    ReadPointed("0", b);
  }

  /** The signed exponent text after the mark. */
  lemma {:induction false} ReadExponentText(coef: nat, fraction: nat, adjusted: int)
    ensures Run(InExponent(coef, fraction, false, 0, false, false), ExponentText(adjusted))
         == InExponent(coef, fraction, adjusted < 0, Abs(adjusted), true, true)
  {
    var sign := if adjusted >= 0 then '+' else '-';
    var n := NatToString(Abs(adjusted));
    assert ExponentText(adjusted) == [sign] + n;
    var r := InExponent(coef, fraction, false, 0, false, false);
    RunConcat(r, [sign], n);
    RunOne(r, sign);
    RunExponentDigits(coef, fraction, adjusted < 0, 0, true, false, n);
  }

  /** A complete mantissa, the exponent mark, then an exponent text. */
  lemma {:induction false} ReadMarked(m: string, t: string, coef: nat, fraction: nat, point: bool, result: Reading)
    requires Run(Start, m) == InMantissa(coef, fraction, point, true)
    requires Run(InExponent(coef, fraction, false, 0, false, false), t) == result
    ensures Run(Start, m + ("E" + t)) == result
  {
    var afterMantissa := InMantissa(coef, fraction, point, true);
    RunConcat(Start, m, "E" + t);
    RunConcat(afterMantissa, "E", t);
    RunOne(afterMantissa, 'E');
  }

  lemma {:induction false} SciMantissaIsPlain(digits: string)
    requires |digits| >= 1
    ensures SciMantissa(digits) == Plain(digits, |digits| - 1)
  {
  }

  /** Scientific notation reads back as its digits, all but the first after the point, and its exponent. */
  lemma {:induction false} ReadScientific(digits: string, adjusted: int)
    requires |digits| >= 1 && AllDigits(digits)
    ensures Run(Start, Scientific(digits, adjusted))
         == InExponent(DigitsValue(digits), |digits| - 1, adjusted < 0, Abs(adjusted), true, true)
  {
    var fraction := |digits| - 1;
    SciMantissaIsPlain(digits);
    ReadPlain(digits, fraction);
    ReadExponentText(DigitsValue(digits), fraction, adjusted);
    ReadMarked(SciMantissa(digits), ExponentText(adjusted), DigitsValue(digits), fraction, fraction > 0,
      InExponent(DigitsValue(digits), fraction, adjusted < 0, Abs(adjusted), true, true));
  }

  /** What a text reads to decides what it parses to. */
  lemma {:induction false} ParseRead(s: string, r: Reading)
    requires Run(Start, s) == r
    ensures ParseUnsigned(s) == Finish(r)
  {
  }

  lemma {:induction false} FinishMantissa(coef: nat, fraction: nat, point: bool, exp: int)
    requires exp + fraction == 0
    ensures Finish(InMantissa(coef, fraction, point, true)) == Some(Decimal(coef, exp))
  {
  }

  lemma {:induction false} FinishExponent(coef: nat, fraction: nat, adjusted: int, exp: int)
    requires exp == adjusted - fraction
    ensures Finish(InExponent(coef, fraction, adjusted < 0, Abs(adjusted), true, true)) == Some(Decimal(coef, exp))
  {
  }

  lemma {:induction false} ParsePlain(digits: string, exp: int)
    requires |digits| >= 1 && AllDigits(digits) && exp <= 0
    ensures ParseUnsigned(Plain(digits, -exp)) == Some(Decimal(DigitsValue(digits), exp))
  {
    ReadPlain(digits, -exp);
    ParseRead(Plain(digits, -exp), InMantissa(DigitsValue(digits), -exp, -exp > 0, true));
    FinishMantissa(DigitsValue(digits), -exp, -exp > 0, exp);
  }

  lemma {:induction false} ParseScientific(digits: string, adjusted: int, exp: int)
    requires |digits| >= 1 && AllDigits(digits) && adjusted == exp + |digits| - 1
    ensures ParseUnsigned(Scientific(digits, adjusted)) == Some(Decimal(DigitsValue(digits), exp))
  {
    ReadScientific(digits, adjusted);
    ParseRead(Scientific(digits, adjusted), InExponent(DigitsValue(digits), |digits| - 1, adjusted < 0, Abs(adjusted), true, true));
    FinishExponent(DigitsValue(digits), |digits| - 1, adjusted, exp);
  }

  /** The unsigned text of a decimal reads back as the same coefficient and exponent. */
  lemma {:induction false} ParseUnsignedString(digits: string, exp: int)
    requires |digits| >= 1 && AllDigits(digits)
    ensures ParseUnsigned(UnsignedString(digits, exp)) == Some(Decimal(DigitsValue(digits), exp))
  {
    if exp <= 0 && exp + |digits| - 1 >= -6 {
      ParseUnsignedPlain(digits, exp);
    } else {
      ParseUnsignedScientific(digits, exp);
    }
  }

  lemma {:induction false} ParseUnsignedPlain(digits: string, exp: int)
    requires |digits| >= 1 && AllDigits(digits)
    requires exp <= 0 && exp + |digits| - 1 >= -6
    ensures ParseUnsigned(UnsignedString(digits, exp)) == Some(Decimal(DigitsValue(digits), exp))
  {
    ParsePlain(digits, exp);
  }

  lemma {:induction false} ParseUnsignedScientific(digits: string, exp: int)
    requires |digits| >= 1 && AllDigits(digits)
    requires !(exp <= 0 && exp + |digits| - 1 >= -6)
    ensures ParseUnsigned(UnsignedString(digits, exp)) == Some(Decimal(DigitsValue(digits), exp))
  {
    ParseScientific(digits, exp + |digits| - 1, exp);
  }

  lemma {:induction false} UnsignedStringStartsWithDigit(digits: string, exp: int)
    requires |digits| >= 1 && AllDigits(digits)
    ensures |UnsignedString(digits, exp)| > 0 && IsDigit(UnsignedString(digits, exp)[0])
  {
  }

  /** `Decimal(str(d)) == d`: the text of a decimal reads back as the same coefficient and exponent. */
  lemma {:induction false} ParseToString(d: Decimal)
    ensures Parse(ToString(d)) == Some(d)
  {
    var digits := NatToString(Abs(d.coef));
    var u := UnsignedString(digits, d.exp);
    ParseUnsignedString(digits, d.exp);
    UnsignedStringStartsWithDigit(digits, d.exp);
    ParseSigned(ToString(d), d.coef < 0, u, Decimal(Abs(d.coef), d.exp));
  }

  /** A text that is an optional minus sign followed by an unsigned number. */
  lemma {:induction false} ParseSigned(s: string, negative: bool, u: string, magnitude: Decimal)
    requires s == (if negative then "-" else "") + u
    requires |u| > 0 && IsDigit(u[0])
    requires ParseUnsigned(u) == Some(magnitude)
    ensures Parse(s) == Some(if negative then Decimal(-magnitude.coef, magnitude.exp) else magnitude)
  {
    if negative {
      assert s[1..] == u;
    } else {
      assert s == u;
    }
  }
}

=== FILE: executor.dfy ===
/**
  The executor stage: for each Execution message it calls the PSP once,
  classifies the reply as SUCCESS or FAILED (or raises), and enqueues one
  Result message for the settlement stage.
 */
module Executor {

  import opened Base
  import opened Text
  import opened Json
  import opened Faults
  import opened Ledger
  import opened Messages
  import Batch

  const Stage := "executor"
  const DefaultMessage := "Simulated error"
  const UnsetUrl := "PSP_URL environment variable not set"
  const SendFailure := "Error while sending payment result to results queue: "

  /**
    What `requests.post` produced: a transport failure, or a status code
    with the reply body decoded as JSON (`None` when it is not JSON).
   */
  datatype PspReply = TransportFailure | Reply(statusCode: nat, body: Option<Json>)

  /** The POST the executor makes: its URL and its JSON payload. */
  datatype PspRequest = PspRequest(url: string, payload: Json)

  /** What the PSP's reply is taken to mean. */
  datatype Verdict = Verdict(status: string, errorCode: Json)

  /**
    One message's effect: the PSP call made (if any), the result queue,
    and the exception that fails the record (if any).
   */
  datatype Executed = Executed(request: Option<PspRequest>, outbox: seq<Json>, fault: Option<Fault>)

  /** The simulate configuration as `simulate_error` and the payload see it. */
  function SimulateOf(m: ExecutionMessage): Json
  {
    OptionalObject(m.simulate)
  }

  /**
    The PSP payload: the checkout id as `payment_id`, the amount and the
    currency, and the simulate configuration only when it is non-empty.
   */
  function PspPayload(m: ExecutionMessage): (r: Json)
    ensures r.JObj?
    ensures Get(r.fields, "payment_id") == JStr(m.checkoutId)
    ensures Get(r.fields, "amount") == JStr(m.totalAmount)
    ensures Get(r.fields, "currency") == JStr(m.currency)
    ensures "simulate" in r.fields <==> Truthy(SimulateOf(m))
    ensures "simulate" in r.fields ==> r.fields["simulate"] == SimulateOf(m)
    ensures r.fields.Keys <= {"payment_id", "amount", "currency", "simulate"}
  {
    var fields := map["payment_id" := JStr(m.checkoutId), "amount" := JStr(m.totalAmount), "currency" := JStr(m.currency)];
    if Truthy(SimulateOf(m)) then JObj(fields["simulate" := SimulateOf(m)]) else JObj(fields)
  }

  /**
    The reading of the PSP's reply: a transport failure or a body that is
    not JSON re-raises, a status of 500 or more raises "PSP returned <code>",
    a body that is not a dict has no `.get`; any other reply, 4xx included,
    is SUCCESS exactly when its `status` is "success", and its `error_code`
    is passed on as it is.
   */
  function Classify(reply: PspReply): (r: Result<Verdict, Fault>)
    ensures r.Ok? <==> reply.Reply? && reply.statusCode < 500 && reply.body.Some? && reply.body.value.JObj?
    ensures r.Ok? ==> r.value.status in {Succeeded, Failed}
    ensures r.Ok? ==> (r.value.status == Succeeded <==> Get(reply.body.value.fields, "status") == JStr("success"))
    ensures r.Ok? ==> r.value.errorCode == Get(reply.body.value.fields, "error_code")
    ensures reply.Reply? && reply.statusCode >= 500 ==>
      r == Err(RuntimeError(JStr("PSP returned " + NatToString(reply.statusCode))))
    ensures reply.TransportFailure? ==> r == Err(RequestException)
  {
    match reply
    case TransportFailure => Err(RequestException)
    case Reply(code, body) =>
      if code >= 500 then Err(RuntimeError(JStr("PSP returned " + NatToString(code))))
      else if body.None? then Err(RequestException)
      else if !body.value.JObj? then Err(AttributeError)
      else
        var fields := body.value.fields;
        var status := if Get(fields, "status") == JStr("success") then Succeeded else Failed;
        Ok(Verdict(status, Get(fields, "error_code")))
  }

  /** The Result message for a verdict. */
  function ResultFor(m: ExecutionMessage, v: Verdict): Json
  {
    ResultJson(m.checkoutId, v.status, v.errorCode, SimulateOrEmpty(SimulateOf(m)))
  }

  /**
    `process_payment_execution`: the fault hook and the PSP URL are checked
    before any call; then the PSP is called once and its reply classified;
    then the Result message is enqueued, a queue error becoming a
    `RuntimeError`.  An unset `PSP_URL` is the empty text.
   */
  function Execute(outbox: seq<Json>, m: ExecutionMessage, pspUrl: string, reply: PspReply, send: SendOutcome): (r: Executed)
    ensures r.fault == None <==>
      SimulateError(SimulateOf(m), Stage, DefaultMessage) == None && pspUrl != ""
      && Classify(reply).Ok? && send == Delivered
    ensures r.fault == None ==> r.outbox == outbox + [ResultFor(m, Classify(reply).value)]
    ensures r.fault.Some? ==> r.outbox == outbox
    ensures r.request.Some? <==> SimulateError(SimulateOf(m), Stage, DefaultMessage) == None && pspUrl != ""
    ensures r.request.Some? ==> r.request.value == PspRequest(pspUrl + "/process", PspPayload(m))
    ensures SimulateError(SimulateOf(m), Stage, DefaultMessage) == None && pspUrl == "" ==>
      r.fault == Some(RuntimeError(JStr(UnsetUrl)))
    ensures r.request.Some? && Classify(reply).Err? ==> r.fault == Some(Classify(reply).error)
    ensures r.request.Some? && Classify(reply).Ok? && send.Rejected? ==>
      r.fault == Some(RuntimeError(JStr(SendFailure + send.reason)))
  {
    match SimulateError(SimulateOf(m), Stage, DefaultMessage)
    case Some(fault) => Executed(None, outbox, Some(fault))
    case None =>
      if pspUrl == "" then Executed(None, outbox, Some(RuntimeError(JStr(UnsetUrl))))
      else
        var request := Some(PspRequest(pspUrl + "/process", PspPayload(m)));
        match Classify(reply)
        case Err(fault) => Executed(request, outbox, Some(fault))
        case Ok(v) =>
          match send
          case Rejected(reason) => Executed(request, outbox, Some(RuntimeError(JStr(SendFailure + reason))))
          case Delivered => Executed(request, outbox + [ResultFor(m, v)], None)
  }

  /**
    `record_handler`: the record's body is decoded (a missing body reads as
    `{}`), validated as an Execution message, and executed.
   */
  function HandleRecord(outbox: seq<Json>, body: Body, pspUrl: string, reply: PspReply, send: SendOutcome): (r: Executed)
    ensures RecordData(body).Err? ==> r == Executed(None, outbox, Some(DecodeError))
    ensures RecordData(body).Ok? && DecodeExecution(RecordData(body).value).None? ==>
      r == Executed(None, outbox, Some(ValidationFailed))
    ensures r.fault.Some? ==> r.outbox == outbox
  {
    match RecordData(body)
    case Err(fault) => Executed(None, outbox, Some(fault))
    case Ok(data) =>
      match DecodeExecution(data)
      case None => Executed(None, outbox, Some(ValidationFailed))
      case Some(m) => Execute(outbox, m, pspUrl, reply, send)
  }

  /** What one record meets: its body, the PSP's reply, and the result queue's answer. */
  datatype RecordInput = RecordInput(body: Body, reply: PspReply, send: SendOutcome)

  /** The per-record handler as the batch sees it: the result queue in, the queue and whether it raised out. */
  function RecordStep(pspUrl: string): (seq<Json>, RecordInput) -> Batch.Step<seq<Json>>
  {
    (outbox: seq<Json>, x: RecordInput) =>
      var r := HandleRecord(outbox, x.body, pspUrl, x.reply, x.send);
      Batch.Step(r.outbox, r.fault.Some?)
  }

  /** `handler`: the batch of records, handled in order, with the failed ones reported. */
  function HandleBatch(outbox: seq<Json>, pspUrl: string, records: seq<Batch.Record<RecordInput>>): Batch.Outcome<seq<Json>>
  {
    Batch.Run(RecordStep(pspUrl), outbox, records)
  }

  // ---------------------------------------------------------------- properties

  /** Each message enqueues one Result message exactly when it does not fail, and never more. */
  lemma {:induction false} ExecuteEnqueuesOnce(outbox: seq<Json>, m: ExecutionMessage, pspUrl: string, reply: PspReply, send: SendOutcome)
    ensures var r := Execute(outbox, m, pspUrl, reply, send);
      |r.outbox| == |outbox| + (if r.fault == None then 1 else 0) && r.outbox[..|outbox|] == outbox
  {
    var r := Execute(outbox, m, pspUrl, reply, send);
    if r.fault == None {
      assert r.outbox[..|outbox|] == outbox;
    }
  }

  /**
    A PSP reply below 500 whose body is a dict always produces a Result
    message when the queue accepts it: SUCCESS for status "success", FAILED
    for anything else, 4xx included.
   */
  lemma {:induction false} ReplyBelow500Settles(outbox: seq<Json>, m: ExecutionMessage, pspUrl: string,
                                               code: nat, fields: map<string, Json>)
    requires SimulateError(SimulateOf(m), Stage, DefaultMessage) == None && pspUrl != "" && code < 500
    ensures var status := if Get(fields, "status") == JStr("success") then Succeeded else Failed;
      Execute(outbox, m, pspUrl, Reply(code, Some(JObj(fields))), Delivered)
        == Executed(Some(PspRequest(pspUrl + "/process", PspPayload(m))),
                    outbox + [ResultJson(m.checkoutId, status, Get(fields, "error_code"), SimulateOrEmpty(SimulateOf(m)))],
                    None)
  {
  }

  /**
    The Result message the executor enqueues is one the settlement stage
    accepts exactly when the PSP's `error_code` is absent, null or a
    string; it then reads back the checkout id, the verdict, the code and
    the executor's simulate configuration (or `{}`).
   */
  lemma {:induction false} ResultReadsBack(outbox: seq<Json>, m: ExecutionMessage, pspUrl: string, reply: PspReply)
    requires Execute(outbox, m, pspUrl, reply, Delivered).fault == None
    ensures var r := Execute(outbox, m, pspUrl, reply, Delivered);
      var v := Classify(reply).value;
      |r.outbox| == |outbox| + 1
      && (DecodeResult(r.outbox[|outbox|]).Some? <==> v.errorCode == JNull || v.errorCode.JStr?)
      && (v.errorCode == JNull || v.errorCode.JStr? ==>
            DecodeResult(r.outbox[|outbox|])
              == Some(ResultMessage(m.checkoutId, v.status, if v.errorCode.JStr? then Some(v.errorCode.s) else None,
                                    Some(SimulateOrEmpty(SimulateOf(m))))))
  {
    var v := Classify(reply).value;
    ResultRoundTrip(m.checkoutId, v.status, v.errorCode, SimulateOrEmpty(SimulateOf(m)));
  }

  /** An injected executor error stops the stage before the PSP is called. */
  lemma {:induction false} InjectedStopsBeforePsp(outbox: seq<Json>, m: ExecutionMessage, message: Option<string>,
                                                 pspUrl: string, reply: PspReply, send: SendOutcome)
    requires m.simulate == Some(Injected(Stage, message).fields)
    ensures Execute(outbox, m, pspUrl, reply, send)
      == Executed(None, outbox, Some(RuntimeError(JStr(if message.Some? then message.value else DefaultMessage))))
  {
    InjectedFires(Stage, message, DefaultMessage);
  }

  /** A record enqueues one Result message exactly when it is not reported as failed. */
  lemma {:induction false} RecordStepEnqueuesOnce(pspUrl: string, outbox: seq<Json>, x: RecordInput)
    ensures var step := RecordStep(pspUrl)(outbox, x);
      |step.state| == |outbox| + (if step.raised then 0 else 1) && step.state[..|outbox|] == outbox
  {
    var r := HandleRecord(outbox, x.body, pspUrl, x.reply, x.send);
    if r.fault.Some? {
      assert r.outbox[..|outbox|] == outbox;
    } else {
      var m := DecodeExecution(RecordData(x.body).value).value;
      ExecuteEnqueuesOnce(outbox, m, pspUrl, x.reply, x.send);
    }
  }

  /**
    A batch appends exactly one Result message per record that is not
    reported as failed, after what the queue held.
   */
  lemma {:induction false} BatchEnqueuesPerSuccess(outbox: seq<Json>, pspUrl: string, records: seq<Batch.Record<RecordInput>>)
    ensures var r := HandleBatch(outbox, pspUrl, records);
      |r.state| == |outbox| + |records| - |r.failures| && r.state[..|outbox|] == outbox
  {
    forall q, x
      ensures Batch.AppendsUnlessRaised(RecordStep(pspUrl), q, x)
    {
      RecordStepEnqueuesOnce(pspUrl, q, x);
    }
    Batch.RunAppends(RecordStep(pspUrl), outbox, records);
  }

  /**
    Whether a record fails, from its input alone: its body is not JSON or
    not an Execution message, or the fault hook fires, `PSP_URL` is unset,
    the PSP's reply is not a settled verdict, or the result queue refuses
    the message.
   */
  predicate RecordFails(pspUrl: string, x: RecordInput)
  {
    RecordData(x.body).Err?
    || DecodeExecution(RecordData(x.body).value).None?
    || SimulateError(SimulateOf(DecodeExecution(RecordData(x.body).value).value), Stage, DefaultMessage).Some?
    || pspUrl == ""
    || Classify(x.reply).Err?
    || x.send != Delivered
  }

  /**
    The batch reports exactly the records that fail, in batch order: the
    result queue a record meets never decides whether it fails.
   */
  lemma {:induction false} BatchReportsFailingRecords(outbox: seq<Json>, pspUrl: string, records: seq<Batch.Record<RecordInput>>)
    ensures HandleBatch(outbox, pspUrl, records).failures == Batch.FailingIds(x => RecordFails(pspUrl, x), records)
  {
    var raises := x => RecordFails(pspUrl, x);
    forall q, x
      ensures RecordStep(pspUrl)(q, x).raised == raises(x)
    {
      var r := HandleRecord(q, x.body, pspUrl, x.reply, x.send);
      if RecordData(x.body).Ok? && DecodeExecution(RecordData(x.body).value).Some? {
        var m := DecodeExecution(RecordData(x.body).value).value;
        assert r == Execute(q, m, pspUrl, x.reply, x.send);
      }
    }
    Batch.FailuresAreRaising(RecordStep(pspUrl), raises, outbox, records);
  }
}

=== FILE: faults.dfy ===
/**
  The exceptions the stages raise or catch, and the fault-injection hook
  `simulate_error` that all three queue-driven stages share.
 */
module Faults {

  import opened Base
  import opened Json

  /** An exception, by the class the handlers tell apart. */
  datatype Fault =
    | RuntimeError(arg: Json)           // `raise RuntimeError(x)`; `x` is the message
    | ValueError(message: string)
    | ClientError(message: string)      // an AWS service call was rejected
    | AttributeError                    // `.get` on a value that is not a dict
    | TypeError                         // e.g. `len()` of a number
    | InvalidOperation                  // `Decimal()` of a non-numeric text
    | RequestException                  // transport failure, or a reply body that is not JSON
    | DecodeError                       // `json.loads` of a text that is not JSON
    | ValidationFailed                  // a queue message did not fit its model

  /**
    `simulate_error(simulate)` for the stage whose configuration sits under
    `stage`: nothing when `simulate` is falsy; otherwise the stage's entry
    (default `{}`) must be a dict, and a truthy `error` in it raises
    `RuntimeError` with its `message` (default `fallback`).  The latency
    entry only sleeps and is not modelled.
   */
  function SimulateError(simulate: Json, stage: string, fallback: string): (r: Option<Fault>)
    ensures !Truthy(simulate) ==> r == None
    ensures r.Some? ==> r.value.RuntimeError? || r.value == AttributeError
    ensures r.Some? && r.value.RuntimeError? ==>
      simulate.JObj? && stage in simulate.fields && simulate.fields[stage].JObj?
      && Truthy(Get(simulate.fields[stage].fields, "error"))
    ensures (simulate.JObj? && stage in simulate.fields && simulate.fields[stage].JObj?
      && Truthy(Get(simulate.fields[stage].fields, "error"))) ==>
      r == Some(RuntimeError(GetOr(simulate.fields[stage].fields, "message", JStr(fallback))))
    ensures r == Some(AttributeError) <==>
      Truthy(simulate) && (!simulate.JObj? || (stage in simulate.fields && !simulate.fields[stage].JObj?))
  {
    if !Truthy(simulate) then None
    else if !simulate.JObj? then Some(AttributeError)
    else
      var config := GetOr(simulate.fields, stage, EmptyObject);
      if !config.JObj? then Some(AttributeError)
      else if Truthy(Get(config.fields, "error")) then
        Some(RuntimeError(GetOr(config.fields, "message", JStr(fallback))))
      else None
  }

  /** The configuration that makes `stage` fail with `message`, or with its default text. */
  function Injected(stage: string, message: Option<string>): Json
  {
    var entries := map["error" := JBool(true)];
    JObj(map[stage := JObj(if message.Some? then entries["message" := JStr(message.value)] else entries)])
  }

  /** An injected error fires for its own stage, with the configured or the default message. */
  lemma {:induction false} InjectedFires(stage: string, message: Option<string>, fallback: string)
    ensures SimulateError(Injected(stage, message), stage, fallback)
      == Some(RuntimeError(JStr(if message.Some? then message.value else fallback)))
  {
  }

  /** Configuration written for another stage never changes what this stage does. */
  lemma {:induction false} SimulateIsolation(fields: map<string, Json>, other: string, entry: Json, stage: string, fallback: string)
    requires other != stage
    ensures SimulateError(JObj(fields[other := entry]), stage, fallback)
      == SimulateError(JObj(fields), stage, fallback)
  {
    if stage in fields {
      assert fields[other := entry][stage] == fields[stage];
    }
  }
}

=== FILE: initializer.dfy ===
/**
  The initializer stage: the HTTP handler that validates a checkout,
  writes its event and order rows, and enqueues one Execution message.
 */
module Initializer {

  import opened Base
  import opened Json
  import opened Decimals
  import opened Faults
  import opened Checkout
  import opened Ledger
  import opened Messages

  /** How the invocation ends: with a response, or with an exception that escapes the handler. */
  datatype Outcome = Replied(response: Response) | Crashed(fault: Fault)

  /** The tables and the execution queue after one request, and how the request ended. */
  datatype Initialized = Initialized(ledger: Ledger, outbox: seq<Json>, outcome: Outcome)

  /** The result of `process_payment`: the writes made, the queue, and its return value or exception. */
  datatype Processed = Processed(ledger: Ledger, outbox: seq<Json>, result: Result<Json, Fault>)

  const Stage := "initializer"
  const DefaultMessage := "Simulated initializer error"

  /** The Execution message for a checkout under the request's `simulate` configuration. */
  function ExecutionFor(c: Checkout, simulate: Json): Json
    requires ValidAmounts(c.orders)
  {
    ExecutionJson(c.checkoutId, TotalAmount(c.orders), Currency(c.orders), c.creditCardInfo, SimulateOrEmpty(simulate))
  }

  /** The event row and the order rows of a checkout, put into the tables. */
  function Written(l: Ledger, c: Checkout): (r: Ledger)
    ensures r.events.Keys == l.events.Keys + {c.checkoutId}
    ensures r.events[c.checkoutId] == EventRowOf(c)
    ensures forall k | k in l.events && k != c.checkoutId :: r.events[k] == l.events[k]
    ensures r.wallets == l.wallets
  {
    Ledger(l.events[c.checkoutId := EventRowOf(c)], PutOrders(l.orders, c, c.orders), l.wallets)
  }

  /**
    The order rows written: one per order id of the checkout, each as the
    last order with that id describes it; other rows stay as they were.
   */
  lemma {:induction false} WrittenOrders(l: Ledger, c: Checkout)
    ensures var r := Written(l, c);
      r.orders.Keys == l.orders.Keys + Ids(c.orders)
      && (forall i | 0 <= i < |c.orders| && LastWithId(c.orders, i) ::
            r.orders[c.orders[i].paymentOrderId] == OrderRowOf(c, c.orders[i]))
      && (forall k | k in l.orders && k !in Ids(c.orders) :: r.orders[k] == l.orders[k])
  {
    PutOrdersEffect(l.orders, c, c.orders);
  }

  /** The value `process_payment` returns. */
  function Receipt(c: Checkout): Json
  {
    JObj(map["payment_event" := CheckoutJson(c), "message" := JStr("Payment event initiated")])
  }

  /**
    `process_payment`: the rows are written first and stay written whatever
    happens next; then the fault hook runs; then exactly one Execution
    message is enqueued, unless the hook raised or the queue refused it.
   */
  function ProcessPayment(l: Ledger, outbox: seq<Json>, c: Checkout, simulate: Json, send: SendOutcome): (r: Processed)
    requires ValidAmounts(c.orders)
    ensures r.ledger == Written(l, c)
    ensures r.result.Ok? <==> SimulateError(simulate, Stage, DefaultMessage) == None && send == Delivered
    ensures r.result.Ok? ==> r.result.value == Receipt(c) && r.outbox == outbox + [ExecutionFor(c, simulate)]
    ensures r.result.Err? ==> r.outbox == outbox
    ensures SimulateError(simulate, Stage, DefaultMessage).Some? ==>
      r.result == Err(SimulateError(simulate, Stage, DefaultMessage).value)
    ensures SimulateError(simulate, Stage, DefaultMessage) == None && send.Rejected? ==>
      r.result == Err(ClientError(send.reason))
  {
    var written := Written(l, c);
    match SimulateError(simulate, Stage, DefaultMessage)
    case Some(fault) => Processed(written, outbox, Err(fault))
    case None =>
      match send
      case Rejected(reason) => Processed(written, outbox, Err(ClientError(reason)))
      case Delivered => Processed(written, outbox + [ExecutionFor(c, simulate)], Ok(Receipt(c)))
  }

  /** `str(o.get("amount", 0))` reads as a decimal (a JSON number always does). */
  predicate AmountReads(amount: Json)
  {
    match amount
    case JStr(s) => Parse(s).Some?
    case JNum(_) => true
    case _ => false
  }

  /**
    The summary the handler computes for its log line before validating,
    over the items of a `payment_orders` list: an item that is not a dict
    raises `AttributeError`, which nothing catches; an amount that does not
    read as a decimal raises `InvalidOperation`, which is caught and ends
    the summary.
   */
  function ScanItems(items: seq<Json>): Option<Fault>
  {
    if |items| == 0 then None
    else if !items[0].JObj? then Some(AttributeError)
    else if !AmountReads(GetOr(items[0].fields, "amount", JNum(0.0))) then None
    else ScanItems(items[1..])
  }

  /**
    The exception the pre-validation summary of `payment_orders` lets
    escape, if any: iterating a non-empty string or dict yields keys that
    have no `.get`; `len()` of `None`, a number or a boolean raises.
   */
  function ScanOrders(orders: Json): Option<Fault>
  {
    match orders
    case JNull => Some(TypeError)
    case JBool(_) => Some(TypeError)
    case JNum(_) => Some(TypeError)
    case JStr(s) => if |s| > 0 then Some(AttributeError) else None
    case JObj(f) => if |f| > 0 then Some(AttributeError) else None
    case JArr(items) => ScanItems(items)
  }

  /** A list of dicts never makes the summary raise. */
  lemma {:induction false} ScanDicts(items: seq<Json>)
    requires forall i | 0 <= i < |items| :: items[i].JObj?
    ensures ScanItems(items) == None
    decreases |items|
  {
    if |items| > 0 {
      assert forall i | 0 <= i < |items[1..]| :: items[1..][i] == items[i + 1];
      ScanDicts(items[1..]);
    }
  }

  /** A body the checkout model accepts never makes the summary raise. */
  lemma {:induction false} ScanAcceptsValid(fields: map<string, Json>)
    requires Validate(fields).Ok?
    ensures ScanOrders(GetOr(fields, "payment_orders", JArr([]))) == None
  {
    var items := Get(fields, "payment_orders").items;
    assert forall i | 0 <= i < |items| :: items[i].JObj? by {
      forall i | 0 <= i < |items|
        ensures items[i].JObj?
      {
        assert Carries(items[i], Validate(fields).value.orders[i]);
      }
    }
    ScanDicts(items);
  }

  /** The HTTP response for what `process_payment` returned or raised. */
  function ResponseFor(result: Result<Json, Fault>): (r: Response)
    ensures r.statusCode == (if result.Ok? then 202 else 500)
    ensures result.Ok? ==> r.body == result.value
  {
    match result
    case Ok(receipt) => BuildResponse(202, receipt)
    case Err(ClientError(message)) =>
      BuildResponse(500, JObj(map["error" := JStr("Service unavailable"), "message" := JStr(message)]))
    case Err(RuntimeError(arg)) =>
      BuildResponse(500, JObj(map["error" := JStr("Processing failed"), "message" := arg]))
    case Err(_) => BuildResponse(500, ErrorBody("Internal server error"))
  }

  /** The 400 response that lists the validation errors. */
  function Rejection(errors: seq<ValidationError>): Response
  {
    BuildResponse(400, JObj(map["error" := JStr("Validation failed"),
                                "details" := JArr(FormatValidationErrors(errors))]))
  }

  /** The handler once the body has been decoded. */
  function HandleData(l: Ledger, outbox: seq<Json>, data: Json, send: SendOutcome): (r: Initialized)
    ensures r.outcome.Replied? ==> r.outcome.response.statusCode in {202, 400, 500}
    ensures r.outcome.Crashed? || r.outcome.response.statusCode == 400 ==> r.ledger == l
    ensures r.outcome.Replied? && r.outcome.response.statusCode == 202 <==> r.outbox != outbox
  {
    if !data.JObj? then Initialized(l, outbox, Crashed(AttributeError))
    else
      match ScanOrders(GetOr(data.fields, "payment_orders", JArr([])))
      case Some(fault) => Initialized(l, outbox, Crashed(fault))
      case None =>
        match Validate(data.fields)
        case Err(errors) => Initialized(l, outbox, Replied(Rejection(errors)))
        case Ok(c) =>
          var p := ProcessPayment(l, outbox, c, Get(data.fields, "simulate"), send);
          Initialized(p.ledger, p.outbox, Replied(ResponseFor(p.result)))
  }

  /**
    `handler`: a body that is not JSON gets 400; one that cannot be read as
    a text at all, or is not an object, raises out of the handler; then the
    checkout is validated (400 with details, nothing written) and processed
    (202 after the enqueue, 500 for a queue, simulated or other error).
   */
  function Handle(l: Ledger, outbox: seq<Json>, body: Body, send: SendOutcome): (r: Initialized)
    ensures body == Text(None) ==>
      r == Initialized(l, outbox, Replied(BuildResponse(400, ErrorBody("Invalid JSON"))))
    ensures body.Structured? ==> r.outcome.Crashed? && r.ledger == l && r.outbox == outbox
    ensures r.outcome.Replied? ==> r.outcome.response.statusCode in {202, 400, 500}
    ensures r.outcome.Crashed? || r.outcome.response.statusCode == 400 ==> r.ledger == l
    ensures r.outcome.Replied? && r.outcome.response.statusCode == 202 <==> r.outbox != outbox
  {
    match body
    case Structured(_) => Initialized(l, outbox, Crashed(TypeError))
    case Absent => HandleData(l, outbox, EmptyObject, send)
    case Text(parsed) =>
      if parsed.None? then Initialized(l, outbox, Replied(BuildResponse(400, ErrorBody("Invalid JSON"))))
      else HandleData(l, outbox, parsed.value, send)
  }

  // ---------------------------------------------------------------- end to end

  /** A request enqueues at most one message, and only onto the end of the queue. */
  lemma {:induction false} EnqueuesAtMostOne(l: Ledger, outbox: seq<Json>, body: Body, send: SendOutcome)
    ensures var r := Handle(l, outbox, body, send);
      r.outbox == outbox || (|r.outbox| == |outbox| + 1 && r.outbox[..|outbox|] == outbox)
  {
    var r := Handle(l, outbox, body, send);
    if r.outbox != outbox {
      var data := if body.Absent? then EmptyObject else body.parsed.value;
      assert r == HandleData(l, outbox, data, send);
      var c := Validate(data.fields).value;
      var p := ProcessPayment(l, outbox, c, Get(data.fields, "simulate"), send);
      assert r.outbox == p.outbox == outbox + [ExecutionFor(c, Get(data.fields, "simulate"))];
      assert r.outbox[..|outbox|] == outbox;
    }
  }

  /**
    A dumped checkout with acceptable amounts is accepted with 202: its
    event and order rows are written and its one Execution message, with an
    empty `simulate`, is enqueued.
   */
  lemma {:induction false} AcceptsCheckout(l: Ledger, outbox: seq<Json>, c: Checkout)
    requires ValidAmounts(c.orders)
    ensures Handle(l, outbox, Text(Some(CheckoutJson(c))), Delivered)
      == Initialized(Written(l, c), outbox + [ExecutionFor(c, JNull)], Replied(BuildResponse(202, Receipt(c))))
  {
    var body := CheckoutFields(c);
    ValidateDumpPlain(c);
    var simulate := Get(body, "simulate");
    assert simulate == JNull;
    HandleValid(l, outbox, body, c, Delivered);
    ProcessDelivered(l, outbox, c, simulate);
    var r := Handle(l, outbox, Text(Some(CheckoutJson(c))), Delivered);
    assert r == HandleData(l, outbox, JObj(body), Delivered);
  }

  /** Without a configured error and with the queue accepting, `process_payment` returns its receipt. */
  lemma {:induction false} ProcessDelivered(l: Ledger, outbox: seq<Json>, c: Checkout, simulate: Json)
    requires ValidAmounts(c.orders) && SimulateError(simulate, Stage, DefaultMessage) == None
    ensures ProcessPayment(l, outbox, c, simulate, Delivered)
      == Processed(Written(l, c), outbox + [ExecutionFor(c, simulate)], Ok(Receipt(c)))
  {
  }

  /** A body the checkout model accepts is handed to `process_payment` with its `simulate` entry. */
  lemma {:induction false} HandleValid(l: Ledger, outbox: seq<Json>, fields: map<string, Json>, c: Checkout, send: SendOutcome)
    requires Validate(fields) == Ok(c)
    ensures var p := ProcessPayment(l, outbox, c, Get(fields, "simulate"), send);
      HandleData(l, outbox, JObj(fields), send) == Initialized(p.ledger, p.outbox, Replied(ResponseFor(p.result)))
  {
    ScanAcceptsValid(fields);
  }

  /**
    A simulated initializer error leaves the checkout's rows written but
    enqueues nothing, and the caller sees 500 "Processing failed" with the
    configured message.
   */
  lemma {:induction false} SimulatedFailureKeepsRows(l: Ledger, outbox: seq<Json>, c: Checkout, message: string, send: SendOutcome)
    requires ValidAmounts(c.orders)
    ensures var body := CheckoutFields(c) + map["simulate" := Injected(Stage, Some(message))];
      Handle(l, outbox, Text(Some(JObj(body))), send)
        == Initialized(Written(l, c), outbox,
             Replied(BuildResponse(500, JObj(map["error" := JStr("Processing failed"), "message" := JStr(message)]))))
  {
    var extra := map["simulate" := Injected(Stage, Some(message))];
    ValidateDump(c, extra);
    var body := CheckoutFields(c) + extra;
    assert Get(body, "simulate") == Injected(Stage, Some(message));
    InjectedFires(Stage, Some(message), DefaultMessage);
    HandleValid(l, outbox, body, c, send);
  }

  /** A body the checkout model rejects, past the summary, gets 400 with its errors and changes nothing. */
  lemma {:induction false} HandleInvalid(l: Ledger, outbox: seq<Json>, fields: map<string, Json>, send: SendOutcome)
    requires ScanOrders(GetOr(fields, "payment_orders", JArr([]))) == None
    requires Validate(fields).Err?
    ensures HandleData(l, outbox, JObj(fields), send)
      == Initialized(l, outbox, Replied(Rejection(Validate(fields).error)))
  {
  }

  /** Every validation error has its detail in the 400 response. */
  lemma {:induction false} RejectionLists(errors: seq<ValidationError>, e: ValidationError)
    requires e in errors
    ensures Rejection(errors).statusCode == 400
    ensures Detail(e) in Rejection(errors).body.fields["details"].items
  {
    var k :| 0 <= k < |errors| && errors[k] == e;
    assert FormatValidationErrors(errors)[k] == Detail(e);
  }

  /**
    A body whose orders are all dicts and one of whose amounts fails the
    amount check gets 400, writes nothing, and the details name the amount
    and carry its message.
   */
  lemma {:induction false} RejectsBadAmount(l: Ledger, outbox: seq<Json>, fields: map<string, Json>, i: nat, v: string, send: SendOutcome)
    requires "payment_orders" in fields && fields["payment_orders"].JArr?
    requires var items := fields["payment_orders"].items;
      i < |items| && (forall k | 0 <= k < |items| :: items[k].JObj?) && Get(items[i].fields, "amount") == JStr(v)
    requires ValidateAmount(v).Err?
    ensures var r := Handle(l, outbox, Text(Some(JObj(fields))), send);
      r.ledger == l && r.outbox == outbox && r.outcome.Replied?
      && r.outcome.response.statusCode == 400
      && Detail(AmountError(OrderAt(i), v)) in r.outcome.response.body.fields["details"].items
  {
    BadAmountRejectsBody(fields, i, v);
    var errors := Validate(fields).error;
    ScanDicts(fields["payment_orders"].items);
    assert GetOr(fields, "payment_orders", JArr([])) == fields["payment_orders"];
    HandleInvalid(l, outbox, fields, send);
    RejectionLists(errors, AmountError(OrderAt(i), v));
    assert Handle(l, outbox, Text(Some(JObj(fields))), send) == HandleData(l, outbox, JObj(fields), send);
  }
}

=== FILE: json.dfy ===
/**
  Decoded JSON values as the Python stages see them after `json.loads`, with
  Python's truthiness and `dict.get`.
 */
module Json {

  import opened Base

  /** JSON numbers are kept as exact reals; objects as string-keyed maps. */
  datatype Json =
    | JNull
    | JBool(b: bool)
    | JNum(n: real)
    | JStr(s: string)
    | JArr(items: seq<Json>)
    | JObj(fields: map<string, Json>)

  /** Python truthiness: `None`, `False`, zero and empty containers are falsy. */
  predicate Truthy(j: Json)
  {
    match j
    case JNull => false
    case JBool(b) => b
    case JNum(n) => n != 0.0
    case JStr(s) => |s| > 0
    case JArr(items) => |items| > 0
    case JObj(fields) => |fields| > 0
  }

  /** `d.get(key, default)` on a dict. */
  function GetOr(d: map<string, Json>, key: string, default: Json): (r: Json)
    ensures key in d ==> r == d[key]
    ensures key !in d ==> r == default
  {
    if key in d then d[key] else default
  }

  /** `d.get(key)`: an absent key reads as `None`. */
  function Get(d: map<string, Json>, key: string): Json
  {
    GetOr(d, key, JNull)
  }

  const EmptyObject: Json := JObj(map[])

  /** The JSON form of an optional dict field (`None` or the dict). */
  function OptionalObject(m: Option<map<string, Json>>): (j: Json)
    ensures Truthy(j) <==> m.Some? && |m.value| > 0
  {
    match m
    case None => JNull
    case Some(fields) => JObj(fields)
  }

  /**
    The `body` of an incoming event or queue record: absent, a text that
    `json.loads` either decodes or rejects (`None`), or a value that is
    already structured.
   */
  datatype Body = Absent | Text(parsed: Option<Json>) | Structured(value: Json)

  /** An HTTP response as `build_response` shapes it; the body stays a JSON value. */
  datatype Response = Response(statusCode: int, headers: map<string, string>, body: Json)

  function BuildResponse(statusCode: int, body: Json): (r: Response)
    ensures r.statusCode == statusCode && r.body == body
    ensures r.headers == map["Content-Type" := "application/json"]
  {
    Response(statusCode, map["Content-Type" := "application/json"], body)
  }

  /** A JSON object holding one string-valued `error` entry. */
  function ErrorBody(message: string): Json
  {
    JObj(map["error" := JStr(message)])
  }
}

=== FILE: ledger.dfy ===
/**
  The three DynamoDB tables the saga writes, as immutable maps keyed the way
  the tables are: payment events by checkout id, payment orders by payment
  order id, wallets by merchant id.
 */
module Ledger {

  import opened Json
  import opened Decimals
  import opened Checkout

  /** A `PaymentEvent` row: one per checkout. */
  datatype EventRow = EventRow(
    checkoutId: string,
    buyer: Buyer,
    sellerInfo: map<string, string>,
    creditCardInfo: map<string, Json>,
    isPaymentDone: bool)

  /** A `PaymentOrder` row: one per order of a checkout. */
  datatype OrderRow = OrderRow(
    paymentOrderId: string,
    buyerAccount: string,
    amount: string,
    currency: string,
    checkoutId: string,
    status: string,
    ledgerUpdated: bool,
    walletUpdated: bool)

  /** A `Wallet` row; `updatedAt` is the clock reading of the last credit. */
  datatype Wallet = Wallet(balance: Decimal, currency: string, updatedAt: real)

  datatype Ledger = Ledger(
    events: map<string, EventRow>,
    orders: map<string, OrderRow>,
    wallets: map<string, Wallet>)

  const NotStarted := "NOT_STARTED"
  const Succeeded := "SUCCESS"
  const Failed := "FAILED"

  /** The event row the initializer writes for a checkout. */
  function EventRowOf(c: Checkout): (r: EventRow)
    ensures r.checkoutId == c.checkoutId && !r.isPaymentDone
    ensures r.sellerInfo == SellerInfo(c.orders)
  {
    EventRow(c.checkoutId, c.buyer, SellerInfo(c.orders), c.creditCardInfo, false)
  }

  /** The order row the initializer writes for one order of a checkout. */
  function OrderRowOf(c: Checkout, o: Order): (r: OrderRow)
    ensures r.paymentOrderId == o.paymentOrderId && r.checkoutId == c.checkoutId
    ensures r.buyerAccount == c.buyer.userId && r.amount == o.amount && r.currency == o.currency
    ensures r.status == NotStarted && !r.ledgerUpdated && !r.walletUpdated
  {
    OrderRow(o.paymentOrderId, c.buyer.userId, o.amount, o.currency, c.checkoutId, NotStarted, false, false)
  }

  /** The batch of `put_item` calls for a checkout's orders, in order. */
  function PutOrders(rows: map<string, OrderRow>, c: Checkout, orders: seq<Order>): map<string, OrderRow>
    decreases |orders|
  {
    if |orders| == 0 then rows
    else
      var last := orders[|orders| - 1];
      PutOrders(rows, c, orders[..|orders| - 1])[last.paymentOrderId := OrderRowOf(c, last)]
  }

  /** The puts leave a row for every id the table had and every id written. */
  lemma {:induction false} PutOrdersKeys(rows: map<string, OrderRow>, c: Checkout, orders: seq<Order>)
    ensures PutOrders(rows, c, orders).Keys == rows.Keys + Ids(orders)
    decreases |orders|
  {
    if |orders| > 0 {
      var init := orders[..|orders| - 1];
      var last := orders[|orders| - 1];
      assert PutOrders(rows, c, orders) == PutOrders(rows, c, init)[last.paymentOrderId := OrderRowOf(c, last)];
      PutOrdersKeys(rows, c, init);
      IdsSnoc(orders);
    } else {
      assert Ids(orders) == {};
    }
  }

  /** Each put replaces any row with the same id, so among orders sharing an id the later one stays. */
  lemma {:induction false} PutOrdersLastWins(rows: map<string, OrderRow>, c: Checkout, orders: seq<Order>, i: int)
    requires 0 <= i < |orders| && LastWithId(orders, i)
    ensures var r := PutOrders(rows, c, orders);
      orders[i].paymentOrderId in r && r[orders[i].paymentOrderId] == OrderRowOf(c, orders[i])
    decreases |orders|
  {
    var init := orders[..|orders| - 1];
    var last := orders[|orders| - 1];
    assert PutOrders(rows, c, orders) == PutOrders(rows, c, init)[last.paymentOrderId := OrderRowOf(c, last)];
    if i < |init| {
      assert init[i] == orders[i];
      assert orders[i].paymentOrderId != last.paymentOrderId;
      assert LastWithId(init, i);
      PutOrdersLastWins(rows, c, init, i);
    }
  }

  /** Rows whose id no order carries are untouched. */
  lemma {:induction false} PutOrdersFrame(rows: map<string, OrderRow>, c: Checkout, orders: seq<Order>, k: string)
    requires k in rows && k !in Ids(orders)
    ensures k in PutOrders(rows, c, orders) && PutOrders(rows, c, orders)[k] == rows[k]
    decreases |orders|
  {
    if |orders| > 0 {
      var init := orders[..|orders| - 1];
      var last := orders[|orders| - 1];
      assert PutOrders(rows, c, orders) == PutOrders(rows, c, init)[last.paymentOrderId := OrderRowOf(c, last)];
      IdsSnoc(orders);
      PutOrdersFrame(rows, c, init, k);
    }
  }

  /** The three facts above together: what the batch of puts leaves in the table. */
  lemma {:induction false} PutOrdersEffect(rows: map<string, OrderRow>, c: Checkout, orders: seq<Order>)
    ensures var r := PutOrders(rows, c, orders);
      r.Keys == rows.Keys + Ids(orders)
      && (forall i | 0 <= i < |orders| && LastWithId(orders, i) ::
            orders[i].paymentOrderId in r && r[orders[i].paymentOrderId] == OrderRowOf(c, orders[i]))
      && (forall k | k in rows && k !in Ids(orders) :: r[k] == rows[k])
  {
    PutOrdersKeys(rows, c, orders);
    forall i | 0 <= i < |orders| && LastWithId(orders, i)
      ensures var r := PutOrders(rows, c, orders);
        orders[i].paymentOrderId in r && r[orders[i].paymentOrderId] == OrderRowOf(c, orders[i])
    {
      PutOrdersLastWins(rows, c, orders, i);
    }
    forall k | k in rows && k !in Ids(orders)
      ensures k in PutOrders(rows, c, orders) && PutOrders(rows, c, orders)[k] == rows[k]
    {
      PutOrdersFrame(rows, c, orders, k);
    }
  }
}

=== FILE: messages.dfy ===
/**
  The two SQS messages that carry a checkout through the saga, as the
  sending stage writes them and as the receiving stage validates them, and
  the outcome of handing a message to the queue.
 */
module Messages {

  import opened Base
  import opened Json
  import opened Faults

  /** What the queue said to `send_message`. */
  datatype SendOutcome = Delivered | Rejected(reason: string)

  /** The initializer-to-executor message, as the executor's model holds it. */
  datatype ExecutionMessage = ExecutionMessage(
    checkoutId: string,
    totalAmount: string,
    currency: string,
    creditCardInfo: map<string, Json>,
    simulate: Option<map<string, Json>>)

  /** The executor-to-settlement message, as the settlement stage's model holds it. */
  datatype ResultMessage = ResultMessage(
    checkoutId: string,
    status: string,
    errorCode: Option<string>,
    simulate: Option<map<string, Json>>)

  /** `simulate or {}` for a configuration that did not make the sender fail. */
  function SimulateOrEmpty(simulate: Json): (r: map<string, Json>)
    ensures Truthy(simulate) && simulate.JObj? ==> r == simulate.fields
    ensures !Truthy(simulate) ==> r == map[]
  {
    if simulate.JObj? then simulate.fields else map[]
  }

  /** The body of the message the initializer enqueues. */
  function ExecutionJson(checkoutId: string, totalAmount: string, currency: string,
                         creditCardInfo: map<string, Json>, simulate: map<string, Json>): Json
  {
    JObj(map["checkout_id" := JStr(checkoutId), "total_amount" := JStr(totalAmount), "currency" := JStr(currency),
             "credit_card_info" := JObj(creditCardInfo), "simulate" := JObj(simulate)])
  }

  /** The body of the message the executor enqueues; `errorCode` is copied as the PSP sent it. */
  function ResultJson(checkoutId: string, status: string, errorCode: Json, simulate: map<string, Json>): Json
  {
    JObj(map["checkout_id" := JStr(checkoutId), "status" := JStr(status), "error_code" := errorCode,
             "simulate" := JObj(simulate)])
  }

  /** A `str` field of a queue message. */
  predicate HasString(d: map<string, Json>, key: string)
  {
    key in d && d[key].JStr?
  }

  /** An `Optional[str]` field: absent and `null` both read as `None`. */
  predicate OptionalString(d: map<string, Json>, key: string)
  {
    key !in d || d[key] == JNull || d[key].JStr?
  }

  /** An `Optional[Dict[str, Any]]` field. */
  predicate OptionalObjectField(d: map<string, Json>, key: string)
  {
    key !in d || d[key] == JNull || d[key].JObj?
  }

  function OptionalDict(d: map<string, Json>, key: string): Option<map<string, Json>>
  {
    if key in d && d[key].JObj? then Some(d[key].fields) else None
  }

  /** `ExecutionMessage.model_validate(data)`; `None` stands for a validation error. */
  function DecodeExecution(data: Json): (r: Option<ExecutionMessage>)
    ensures r.Some? <==> (data.JObj?
      && Get(data.fields, "checkout_id").JStr? && Get(data.fields, "total_amount").JStr?
      && Get(data.fields, "currency").JStr? && Get(data.fields, "credit_card_info").JObj?
      && (Get(data.fields, "simulate") == JNull || Get(data.fields, "simulate").JObj?))
    ensures r.Some? ==> (Get(data.fields, "checkout_id") == JStr(r.value.checkoutId)
      && Get(data.fields, "total_amount") == JStr(r.value.totalAmount)
      && Get(data.fields, "currency") == JStr(r.value.currency)
      && Get(data.fields, "credit_card_info") == JObj(r.value.creditCardInfo))
    ensures r.Some? ==> ((r.value.simulate.Some? <==> Get(data.fields, "simulate").JObj?)
      && (r.value.simulate.Some? ==> Get(data.fields, "simulate") == JObj(r.value.simulate.value)))
  {
    if !data.JObj? then None
    else
      var d := data.fields;
      if HasString(d, "checkout_id") && HasString(d, "total_amount") && HasString(d, "currency")
         && "credit_card_info" in d && d["credit_card_info"].JObj?
         && OptionalObjectField(d, "simulate")
      then Some(ExecutionMessage(d["checkout_id"].s, d["total_amount"].s, d["currency"].s,
                                 d["credit_card_info"].fields, OptionalDict(d, "simulate")))
      else None
  }

  /** `PaymentResultMessage.model_validate(data)`; `None` stands for a validation error. */
  function DecodeResult(data: Json): (r: Option<ResultMessage>)
    ensures r.Some? <==> (data.JObj?
      && Get(data.fields, "checkout_id").JStr? && Get(data.fields, "status").JStr?
      && (Get(data.fields, "error_code") == JNull || Get(data.fields, "error_code").JStr?)
      && (Get(data.fields, "simulate") == JNull || Get(data.fields, "simulate").JObj?))
    ensures r.Some? ==> data.JObj? && Get(data.fields, "checkout_id") == JStr(r.value.checkoutId)
    ensures r.Some? ==> data.JObj? && Get(data.fields, "status") == JStr(r.value.status)
    ensures r.Some? ==> ((r.value.errorCode.Some? <==> Get(data.fields, "error_code").JStr?)
      && (r.value.errorCode.Some? ==> Get(data.fields, "error_code") == JStr(r.value.errorCode.value)))
    ensures r.Some? ==> ((r.value.simulate.Some? <==> Get(data.fields, "simulate").JObj?)
      && (r.value.simulate.Some? ==> Get(data.fields, "simulate") == JObj(r.value.simulate.value)))
  {
    if !data.JObj? then None
    else
      var d := data.fields;
      if HasString(d, "checkout_id") && HasString(d, "status")
         && OptionalString(d, "error_code")
         && OptionalObjectField(d, "simulate")
      then
        var code := if "error_code" in d && d["error_code"].JStr? then Some(d["error_code"].s) else None;
        Some(ResultMessage(d["checkout_id"].s, d["status"].s, code, OptionalDict(d, "simulate")))
      else None
  }

  /** What the initializer enqueues is what the executor reads back, field by field. */
  lemma {:induction false} ExecutionRoundTrip(checkoutId: string, totalAmount: string, currency: string,
                                              creditCardInfo: map<string, Json>, simulate: map<string, Json>)
    ensures DecodeExecution(ExecutionJson(checkoutId, totalAmount, currency, creditCardInfo, simulate))
      == Some(ExecutionMessage(checkoutId, totalAmount, currency, creditCardInfo, Some(simulate)))
  {
  }

  /**
    What the executor enqueues passes the settlement stage's validation
    exactly when the PSP's error code is absent or a string, and then reads
    back field by field.
   */
  lemma {:induction false} ResultRoundTrip(checkoutId: string, status: string, errorCode: Json, simulate: map<string, Json>)
    ensures DecodeResult(ResultJson(checkoutId, status, errorCode, simulate)).Some?
      <==> errorCode == JNull || errorCode.JStr?
    ensures errorCode == JNull || errorCode.JStr? ==>
      DecodeResult(ResultJson(checkoutId, status, errorCode, simulate))
        == Some(ResultMessage(checkoutId, status, if errorCode.JStr? then Some(errorCode.s) else None, Some(simulate)))
  {
  }

  /**
    A record's `body`: a text is decoded (a text that is not JSON fails the
    record), a structured value is used as it is, and a missing body reads
    as `{}`.
   */
  function RecordData(body: Body): (r: Result<Json, Fault>)
    ensures body.Absent? ==> r == Ok(EmptyObject)
    ensures body.Structured? ==> r == Ok(body.value)
    ensures body.Text? ==> (r.Ok? <==> body.parsed.Some?)
  {
    match body
    case Absent => Ok(EmptyObject)
    case Text(parsed) => if parsed.Some? then Ok(parsed.value) else Err(DecodeError)
    case Structured(value) => Ok(value)
  }
}

=== FILE: psp.dfy ===
/**
  The PSP simulator: an HTTP handler that answers each payment request
  with 400, 500, 200-failed or 200-success, and remembers, for the life of
  the process, every payment id it has already made fail once.
 */
module Psp {

  import opened Base
  import opened Json

  const ErrorCodes: seq<string> := ["INSUFFICIENT_FUNDS", "CARD_DECLINED", "EXPIRED_CARD", "INVALID_CARD", "FRAUD_SUSPECTED"]

  const MissingFields := "Missing required fields: payment_id, amount, currency"
  const TemporarilyUnavailable := "PSP service temporarily unavailable"
  const Unavailable := "PSP service unavailable"
  const InvalidJson := "Invalid JSON in request body"

  /**
    One request: its body, and the index `random.choice` would draw from
    the error codes (taken modulo their number).
   */
  datatype Request = Request(body: Body, pick: nat)

  /** The set of failed payment ids after a request, and the response. */
  datatype Served = Served(failed: set<Json>, response: Response)

  /**
    How a payment id sits in a Python set: `True` is the same element as
    `1` (JSON numbers are already compared by value); lists and dicts
    cannot be hashed at all.
   */
  function Key(id: Json): Option<Json>
  {
    match id
    case JArr(_) => None
    case JObj(_) => None
    case JBool(b) => Some(JNum(if b then 1.0 else 0.0))
    case _ => Some(id)
  }

  /** The error code of a business failure: the configured one when truthy, else the drawn one. */
  function ChosenCode(config: map<string, Json>, pick: nat): (r: Json)
    ensures Truthy(r)
    ensures Truthy(Get(config, "error_code")) ==> r == Get(config, "error_code")
    ensures !Truthy(Get(config, "error_code")) ==> r.JStr? && r.s in ErrorCodes
  {
    if Truthy(Get(config, "error_code")) then Get(config, "error_code")
    else JStr(ErrorCodes[pick % |ErrorCodes|])
  }

  /** The outage a configured server error reports is not the one an internal error reports. */
  lemma {:induction false} OutagesDiffer()
    ensures ErrorBody(Unavailable) != ErrorBody(TemporarilyUnavailable)
  {
    assert Unavailable[12] != TemporarilyUnavailable[12];
    assert ErrorBody(Unavailable).fields["error"] != ErrorBody(TemporarilyUnavailable).fields["error"];
  }

  /** The 200 response. */
  function Paid(id: Json, code: Option<Json>): Json
  {
    var fields := map["payment_id" := id, "status" := JStr(if code.Some? then "failed" else "success")];
    JObj(if code.Some? then fields["error_code" := code.value] else fields)
  }

  /** The business-error check, once the server-error check has let the request through. */
  function BusinessCheck(failed: set<Json>, id: Json, config: map<string, Json>, pick: nat): (r: Served)
    ensures r.failed == failed || (Key(id).Some? && Key(id).value !in failed && r.failed == failed + {Key(id).value})
    ensures r.failed != failed <==> SimulatedFailure(r.response)
  {
    OutagesDiffer();
    if !Truthy(Get(config, "error")) then Served(failed, BuildResponse(200, Paid(id, None)))
    else
      match Key(id)
      case None => Served(failed, BuildResponse(500, ErrorBody(Unavailable)))
      case Some(k) =>
        if k in failed then Served(failed, BuildResponse(200, Paid(id, None)))
        else Served(failed + {k}, BuildResponse(200, Paid(id, Some(ChosenCode(config, pick)))))
  }

  /** The handler once the body has been decoded. */
  function Decide(failed: set<Json>, data: Json, pick: nat): (r: Served)
    ensures r.failed == failed || (data.JObj? && Key(Get(data.fields, "payment_id")).Some?
                                   && Key(Get(data.fields, "payment_id")).value !in failed
                                   && r.failed == failed + {Key(Get(data.fields, "payment_id")).value})
    ensures r.failed != failed <==> SimulatedFailure(r.response)
  {
    OutagesDiffer();
    if !data.JObj? then Served(failed, BuildResponse(500, ErrorBody(Unavailable)))
    else
      var fields := data.fields;
      var id := Get(fields, "payment_id");
      if !(Truthy(id) && Truthy(Get(fields, "amount")) && Truthy(Get(fields, "currency"))) then
        Served(failed, BuildResponse(400, ErrorBody(MissingFields)))
      else
        var simulate := GetOr(fields, "simulate", EmptyObject);
        if !simulate.JObj? then Served(failed, BuildResponse(500, ErrorBody(Unavailable)))
        else
          var config := GetOr(simulate.fields, "psp", EmptyObject);
          if !config.JObj? then Served(failed, BuildResponse(500, ErrorBody(Unavailable)))
          else if !Truthy(Get(config.fields, "server_error")) then BusinessCheck(failed, id, config.fields, pick)
          else
            match Key(id)
            case None => Served(failed, BuildResponse(500, ErrorBody(Unavailable)))
            case Some(k) =>
              if k in failed then BusinessCheck(failed, id, config.fields, pick)
              else Served(failed + {k}, BuildResponse(500, ErrorBody(TemporarilyUnavailable)))
  }

  /** The key under which a request's payment id is remembered, when the request gets that far. */
  function RequestKey(body: Body): Option<Json>
  {
    var data := match body
      case Absent => EmptyObject
      case Text(parsed) => if parsed.Some? then parsed.value else JNull
      case Structured(value) => value;
    if data.JObj? then Key(Get(data.fields, "payment_id")) else None
  }

  /** A response that a configured failure produced: the 500 outage or a 200 with status "failed". */
  predicate SimulatedFailure(response: Response)
  {
    (response.statusCode == 500 && response.body == ErrorBody(TemporarilyUnavailable))
    || (response.statusCode == 200 && response.body.JObj? && Get(response.body.fields, "status") == JStr("failed"))
  }

  /**
    `handler`: a text body that is not JSON gets 400, a missing one reads
    as `{}`.  The set of failed ids grows by at most the request's own id,
    and it grows exactly when the response is a simulated failure.
   */
  function Handle(failed: set<Json>, request: Request): (r: Served)
    ensures request.body == Text(None) ==> r == Served(failed, BuildResponse(400, ErrorBody(InvalidJson)))
    ensures r.response.statusCode in {200, 400, 500}
    ensures r.response.statusCode == 400 ==> r.failed == failed
    ensures r.failed == failed || (RequestKey(request.body).Some? && RequestKey(request.body).value !in failed
                                   && r.failed == failed + {RequestKey(request.body).value})
    ensures r.failed != failed <==> SimulatedFailure(r.response)
  {
    match request.body
    case Absent => Decide(failed, EmptyObject, request.pick)
    case Structured(value) => Decide(failed, value, request.pick)
    case Text(parsed) =>
      if parsed.None? then Served(failed, BuildResponse(400, ErrorBody(InvalidJson)))
      else Decide(failed, parsed.value, request.pick)
  }

  // ---------------------------------------------------------------- properties

  /** The request the executor sends, in the shape the simulator reads. */
  function PaymentRequest(id: string, amount: string, currency: string, simulate: Option<Json>): Json
  {
    var fields := map["payment_id" := JStr(id), "amount" := JStr(amount), "currency" := JStr(currency)];
    JObj(if simulate.Some? then fields["simulate" := simulate.value] else fields)
  }

  /** Every field present but one falsy gets 400 and leaves the set alone. */
  lemma {:induction false} MissingFieldRejected(failed: set<Json>, fields: map<string, Json>, pick: nat)
    requires !Truthy(Get(fields, "payment_id")) || !Truthy(Get(fields, "amount")) || !Truthy(Get(fields, "currency"))
    ensures Handle(failed, Request(Structured(JObj(fields)), pick))
      == Served(failed, BuildResponse(400, ErrorBody(MissingFields)))
  {
  }

  /** A configured server error fails a fresh id once, with 500, and remembers it. */
  lemma {:induction false} ServerErrorFirst(failed: set<Json>, id: string, amount: string, currency: string,
                                           config: map<string, Json>, pick: nat)
    requires id != "" && amount != "" && currency != ""
    requires Truthy(Get(config, "server_error")) && JStr(id) !in failed
    ensures Handle(failed, Request(Structured(PaymentRequest(id, amount, currency, Some(JObj(map["psp" := JObj(config)])))), pick))
      == Served(failed + {JStr(id)}, BuildResponse(500, ErrorBody(TemporarilyUnavailable)))
  {
  }

  /**
    A configured business error, with no server error configured, fails a
    fresh id once with 200 "failed" and an error code, and remembers it.
   */
  lemma {:induction false} BusinessErrorFails(failed: set<Json>, id: string, amount: string, currency: string,
                                             config: map<string, Json>, pick: nat)
    requires id != "" && amount != "" && currency != ""
    requires !Truthy(Get(config, "server_error")) && Truthy(Get(config, "error")) && JStr(id) !in failed
    ensures var r := Handle(failed, Request(Structured(PaymentRequest(id, amount, currency, Some(JObj(map["psp" := JObj(config)])))), pick));
      r.failed == failed + {JStr(id)} && r.response.statusCode == 200
      && r.response.body == Paid(JStr(id), Some(ChosenCode(config, pick)))
  {
  }

  /** An id that has already failed once is paid, whatever is configured. */
  lemma {:induction false} FailedIdIsPaid(failed: set<Json>, id: string, amount: string, currency: string,
                                         config: map<string, Json>, pick: nat)
    requires id != "" && amount != "" && currency != "" && JStr(id) in failed
    ensures Handle(failed, Request(Structured(PaymentRequest(id, amount, currency, Some(JObj(map["psp" := JObj(config)])))), pick))
      == Served(failed, BuildResponse(200, Paid(JStr(id), None)))
  {
  }

  /** The 200 body carries an error code exactly when it reports a failure. */
  lemma {:induction false} ErrorCodeIffFailed(id: Json, code: Option<Json>)
    ensures var body := Paid(id, code).fields;
      ("error_code" in body <==> code.Some?)
      && (Get(body, "status") == JStr("failed") <==> "error_code" in body)
      && Get(body, "payment_id") == id
  {
  }

  // ---------------------------------------------------------------- one process lifetime

  /** The failed-id set and the responses after a sequence of requests served by one process. */
  datatype Lifetime = Lifetime(failed: set<Json>, responses: seq<Response>)

  function Serve(failed: set<Json>, requests: seq<Request>): (r: Lifetime)
    ensures |r.responses| == |requests|
    ensures failed <= r.failed
    decreases |requests|
  {
    if |requests| == 0 then Lifetime(failed, [])
    else
      var before := Serve(failed, requests[..|requests| - 1]);
      var s := Handle(before.failed, requests[|requests| - 1]);
      Lifetime(s.failed, before.responses + [s.response])
  }

  /** Request `i` is answered from the set the first `i` requests left behind. */
  lemma {:induction false} ServeResponse(failed: set<Json>, requests: seq<Request>, i: nat)
    requires i < |requests|
    ensures Serve(failed, requests).responses[i]
      == Handle(Serve(failed, requests[..i]).failed, requests[i]).response
    ensures Serve(failed, requests[..i + 1]).failed
      == Handle(Serve(failed, requests[..i]).failed, requests[i]).failed
    decreases |requests|
  {
    var n := |requests| - 1;
    assert requests[..n + 1] == requests;
    var before := Serve(failed, requests[..n]);
    assert Serve(failed, requests).responses
      == before.responses + [Handle(before.failed, requests[n]).response];
    if i < n {
      ServeResponse(failed, requests[..n], i);
      assert requests[..n][..i] == requests[..i];
      assert requests[..n][..i + 1] == requests[..i + 1];
    } else {
      assert requests[..n][..i] == requests[..i];
    }
  }

  /** The set only grows over a lifetime. */
  lemma {:induction false} ServeMonotone(failed: set<Json>, requests: seq<Request>, i: nat, j: nat)
    requires i <= j <= |requests|
    ensures Serve(failed, requests[..i]).failed <= Serve(failed, requests[..j]).failed
    decreases j - i
  {
    if i < j {
      assert requests[..j][..j - 1] == requests[..j - 1];
      assert Serve(failed, requests[..j - 1]).failed <= Serve(failed, requests[..j]).failed;
      ServeMonotone(failed, requests, i, j - 1);
    }
  }

  /**
    Over one process lifetime each payment id gets at most one simulated
    failure, server or business, and none at all if it had failed before.
   */
  lemma {:induction false} OneFailurePerId(failed: set<Json>, requests: seq<Request>, i: nat, j: nat)
    requires i < |requests| && j < |requests|
    requires SimulatedFailure(Serve(failed, requests).responses[i])
    ensures RequestKey(requests[i].body).Some? && RequestKey(requests[i].body).value !in failed
    ensures i != j && SimulatedFailure(Serve(failed, requests).responses[j]) ==>
      RequestKey(requests[i].body) != RequestKey(requests[j].body)
  {
    ServeResponse(failed, requests, i);
    ServeMonotone(failed, requests, 0, i);
    assert requests[..0] == [];
    if i != j && SimulatedFailure(Serve(failed, requests).responses[j]) {
      ServeResponse(failed, requests, j);
      if i < j {
        ServeMonotone(failed, requests, i + 1, j);
      } else {
        ServeMonotone(failed, requests, j + 1, i);
      }
    }
  }
}

=== FILE: saga.dfy ===
/**
  The stages chained: what the initializer enqueues is what the executor
  reads, what the executor sends is what the PSP simulator reads, what the
  executor enqueues is what the settlement stage reads, and a checkout the
  initializer wrote settles into its sellers' wallets.
 */
module Saga {

  import opened Base
  import opened Json
  import opened Decimals
  import opened Checkout
  import opened Ledger
  import opened Messages
  import Initializer
  import Executor
  import Psp
  import Settlement

  /** The Execution message the initializer enqueues reads back field by field in the executor. */
  lemma {:induction false} ExecutionReadsBack(c: Checkout, simulate: Json)
    requires ValidAmounts(c.orders)
    ensures DecodeExecution(Initializer.ExecutionFor(c, simulate))
      == Some(ExecutionMessage(c.checkoutId, TotalAmount(c.orders), Currency(c.orders), c.creditCardInfo,
                               Some(SimulateOrEmpty(simulate))))
  {
    ExecutionRoundTrip(c.checkoutId, TotalAmount(c.orders), Currency(c.orders), c.creditCardInfo, SimulateOrEmpty(simulate));
  }

  /** The PSP simulator's answer to the executor's request. */
  function PspAnswer(failed: set<Json>, m: ExecutionMessage, pick: nat): Psp.Served
  {
    Psp.Handle(failed, Psp.Request(Structured(Executor.PspPayload(m)), pick))
  }

  /** The executor's view of a simulator response. */
  function AsReply(response: Response): Executor.PspReply
    requires response.statusCode >= 0
  {
    Executor.Reply(response.statusCode, Some(response.body))
  }

  /**
    Without a simulate configuration, a message whose id, amount and
    currency are all non-empty is paid by the simulator, and the executor
    enqueues a SUCCESS Result message that the settlement stage reads back
    with no error code.
   */
  lemma {:induction false} PlainPaymentSucceeds(outbox: seq<Json>, m: ExecutionMessage, pspUrl: string, failed: set<Json>, pick: nat)
    requires !Truthy(OptionalObject(m.simulate)) && pspUrl != ""
    requires m.checkoutId != "" && m.totalAmount != "" && m.currency != ""
    ensures PspAnswer(failed, m, pick) == Psp.Served(failed, BuildResponse(200, Psp.Paid(JStr(m.checkoutId), None)))
    ensures var r := Executor.Execute(outbox, m, pspUrl, AsReply(PspAnswer(failed, m, pick).response), Delivered);
      r.fault == None
      && r.outbox == outbox + [ResultJson(m.checkoutId, Succeeded, JNull, map[])]
      && DecodeResult(r.outbox[|outbox|]) == Some(ResultMessage(m.checkoutId, Succeeded, None, Some(map[])))
  {
    assert Executor.PspPayload(m) == Psp.PaymentRequest(m.checkoutId, m.totalAmount, m.currency, None);
    ResultRoundTrip(m.checkoutId, Succeeded, JNull, map[]);
  }

  /**
    A message with an empty id, amount or currency is refused by the
    simulator with 400, which the executor does not treat as an error: it
    enqueues a FAILED Result message with a null error code.
   */
  lemma {:induction false} EmptyFieldDeclined(outbox: seq<Json>, m: ExecutionMessage, pspUrl: string, failed: set<Json>, pick: nat)
    requires !Truthy(OptionalObject(m.simulate)) && pspUrl != ""
    requires m.checkoutId == "" || m.totalAmount == "" || m.currency == ""
    ensures PspAnswer(failed, m, pick) == Psp.Served(failed, BuildResponse(400, ErrorBody(Psp.MissingFields)))
    ensures Executor.Execute(outbox, m, pspUrl, AsReply(PspAnswer(failed, m, pick).response), Delivered).outbox
      == outbox + [ResultJson(m.checkoutId, Failed, JNull, map[])]
  {
    assert Executor.PspPayload(m) == Psp.PaymentRequest(m.checkoutId, m.totalAmount, m.currency, None);
    Psp.MissingFieldRejected(failed, Executor.PspPayload(m).fields, pick);
  }

  /**
    A checkout the initializer accepted with no simulate configuration, and
    whose id and first currency are non-empty, comes out of the executor as
    a SUCCESS Result message.
   */
  lemma {:induction false} AcceptedCheckoutIsPaid(c: Checkout, outbox: seq<Json>, pspUrl: string, failed: set<Json>, pick: nat)
    requires ValidAmounts(c.orders) && pspUrl != ""
    requires c.checkoutId != "" && Currency(c.orders) != ""
    ensures var m := DecodeExecution(Initializer.ExecutionFor(c, JNull));
      m.Some?
      && Executor.Execute(outbox, m.value, pspUrl, AsReply(PspAnswer(failed, m.value, pick).response), Delivered).outbox
         == outbox + [ResultJson(c.checkoutId, Succeeded, JNull, map[])]
  {
    ExecutionReadsBack(c, JNull);
    var m := DecodeExecution(Initializer.ExecutionFor(c, JNull)).value;
    assert m.totalAmount == TotalAmount(c.orders);
    PlainPaymentSucceeds(outbox, m, pspUrl, failed, pick);
  }

  /** No two orders of a checkout share a payment order id. */
  predicate DistinctIds(orders: seq<Order>)
  {
    forall i, j | 0 <= i < j < |orders| :: orders[i].paymentOrderId != orders[j].paymentOrderId
  }

  /** The order rows the initializer wrote for a checkout, in order. */
  function RowsOf(c: Checkout): (r: seq<OrderRow>)
    ensures |r| == |c.orders|
    ensures forall i | 0 <= i < |r| :: r[i] == OrderRowOf(c, c.orders[i])
  {
    seq(|c.orders|, i requires 0 <= i < |c.orders| => OrderRowOf(c, c.orders[i]))
  }

  /**
    A SUCCESS message for a checkout the initializer wrote, whose orders
    have distinct ids and non-empty seller accounts, settles all of them:
    every seller's wallet gains exactly the amounts of that seller's orders.
   */
  lemma {:induction false} WrittenCheckoutSettles(l: Ledger, c: Checkout, now: real, merchant: string)
    requires ValidAmounts(c.orders) && DistinctIds(c.orders) && |c.orders| > 0
    requires forall i | 0 <= i < |c.orders| :: c.orders[i].sellerAccount != ""
    ensures var m := ResultMessage(c.checkoutId, Succeeded, None, Some(map[]));
      var r := Settlement.Settle(Initializer.Written(l, c), m, RowsOf(c), now);
      r.result == Ok(Settlement.Report(c.checkoutId, Succeeded, |c.orders|))
      && Settlement.BalanceOf(r.ledger.wallets, merchant)
         == Settlement.BalanceOf(l.wallets, merchant) + Settlement.CreditedTo(SellerInfo(c.orders), RowsOf(c), merchant)
  {
    var written := Initializer.Written(l, c);
    var found := RowsOf(c);
    var sellers := SellerInfo(c.orders);
    var m := ResultMessage(c.checkoutId, Succeeded, None, Some(map[]));
    assert written.events[c.checkoutId].sellerInfo == sellers;
    SellerInfoEffect(c.orders);
    forall i | 0 <= i < |found|
      ensures Settlement.SellerOf(sellers, found[i].paymentOrderId) != "" && Parse(found[i].amount).Some?
    {
      assert LastWithId(c.orders, i);
      ValidateAmountAccepts(c.orders[i].amount);
    }
    Settlement.CreditAllCompletes(written, sellers, found, now);
    Settlement.SuccessSettles(written, m, found, now, merchant);
  }
}

=== FILE: settlement.dfy ===
/**
  The settlement (wallet) stage: for each Result message it looks up the
  checkout's order rows and, on SUCCESS, credits every seller's wallet and
  marks the orders and the event settled; on FAILED it marks the orders
  failed.  Writes are applied one at a time and nothing is rolled back.
 */
module Settlement {

  import opened Base
  import opened Json
  import opened Decimals
  import opened Faults
  import opened Ledger
  import opened Messages
  import Batch

  const Stage := "wallet"
  const DefaultMessage := "Simulated wallet error"
  const MissingEvent := "Payment event not found: "
  const MissingSeller := "Missing seller_account for payment_order "

  /** The dict `process_payment_result` returns. */
  datatype Report = Report(checkoutId: string, status: string, processedOrders: nat)

  /** The tables after one message, and its return value or exception. */
  datatype Settled = Settled(ledger: Ledger, result: Result<Report, Fault>)

  /** The tables part-way through the credit loop, and the exception that stopped it, if any. */
  datatype Progress = Progress(ledger: Ledger, fault: Option<Fault>)

  /** The ids of the queried order rows. */
  function OrderIds(found: seq<OrderRow>): set<string>
  {
    set i | 0 <= i < |found| :: found[i].paymentOrderId
  }

  lemma {:induction false} InOrderIds(found: seq<OrderRow>, i: nat)
    requires i < |found|
    ensures found[i].paymentOrderId in OrderIds(found)
  {
  }

  lemma {:induction false} OrderIdsCons(found: seq<OrderRow>)
    requires |found| > 0
    ensures OrderIds(found) == {found[0].paymentOrderId} + OrderIds(found[1..])
  {
    forall k | k in OrderIds(found)
      ensures k in {found[0].paymentOrderId} + OrderIds(found[1..])
    {
      var i :| 0 <= i < |found| && found[i].paymentOrderId == k;
      if i > 0 {
        assert found[1..][i - 1] == found[i];
      }
    }
    forall k | k in OrderIds(found[1..])
      ensures k in OrderIds(found)
    {
      var i :| 0 <= i < |found[1..]| && found[1..][i].paymentOrderId == k;
      assert found[i + 1] == found[1..][i];
    }
  }

  /** `seller_mapping.get(payment_order_id)`, with an absent id read as the empty (falsy) text. */
  function SellerOf(sellers: map<string, string>, id: string): string
  {
    if id in sellers then sellers[id] else ""
  }

  /** The merchants whose wallets the orders name. */
  function Merchants(sellers: map<string, string>, found: seq<OrderRow>): set<string>
  {
    set i | 0 <= i < |found| :: SellerOf(sellers, found[i].paymentOrderId)
  }

  lemma {:induction false} MerchantsCons(sellers: map<string, string>, found: seq<OrderRow>)
    requires |found| > 0
    ensures Merchants(sellers, found) == {SellerOf(sellers, found[0].paymentOrderId)} + Merchants(sellers, found[1..])
  {
    forall w | w in Merchants(sellers, found)
      ensures w in {SellerOf(sellers, found[0].paymentOrderId)} + Merchants(sellers, found[1..])
    {
      var i :| 0 <= i < |found| && SellerOf(sellers, found[i].paymentOrderId) == w;
      if i > 0 {
        assert found[1..][i - 1] == found[i];
      }
    }
    forall w | w in Merchants(sellers, found[1..])
      ensures w in Merchants(sellers, found)
    {
      var i :| 0 <= i < |found[1..]| && SellerOf(sellers, found[1..][i].paymentOrderId) == w;
      assert found[i + 1] == found[1..][i];
    }
  }

  /**
    The row an `update_item` on an order id amends: the stored row, or the
    queried row when the table no longer holds it.
   */
  function Stored(orders: map<string, OrderRow>, o: OrderRow): OrderRow
  {
    if o.paymentOrderId in orders then orders[o.paymentOrderId] else o
  }

  /** A wallet's balance; a wallet that does not exist yet counts as 0. */
  function BalanceOf(wallets: map<string, Wallet>, merchant: string): real
  {
    if merchant in wallets then Value(wallets[merchant].balance) else 0.0
  }

  /**
    The wallet `update_item`: `ADD balance :amount` (from 0 for a new
    wallet) and `SET currency, updated_at`.
   */
  function Credited(wallets: map<string, Wallet>, merchant: string, amount: Decimal, currency: string, now: real): (r: map<string, Wallet>)
    ensures r.Keys == wallets.Keys + {merchant}
    ensures BalanceOf(r, merchant) == BalanceOf(wallets, merchant) + Value(amount)
    ensures r[merchant].currency == currency && r[merchant].updatedAt == now
    ensures forall w | w in wallets && w != merchant :: r[w] == wallets[w]
  {
    var balance := if merchant in wallets then wallets[merchant].balance else Zero;
    wallets[merchant := Wallet(Add(balance, amount), currency, now)]
  }

  /**
    One turn of the SUCCESS loop: a missing or empty seller account raises
    `ValueError` before any write; an amount `Decimal` cannot read raises
    `InvalidOperation`; otherwise the seller's wallet is credited and the
    order set to SUCCESS with `wallet_updated`.
   */
  function CreditOne(l: Ledger, sellers: map<string, string>, o: OrderRow, now: real): (r: Result<Ledger, Fault>)
    ensures r.Ok? <==> SellerOf(sellers, o.paymentOrderId) != "" && Parse(o.amount).Some?
    ensures SellerOf(sellers, o.paymentOrderId) == "" ==>
      r == Err(ValueError(MissingSeller + o.paymentOrderId))
    ensures SellerOf(sellers, o.paymentOrderId) != "" && Parse(o.amount).None? ==> r == Err(InvalidOperation)
    ensures r.Ok? ==> r.value.events == l.events
    ensures r.Ok? ==>
      r.value.orders == l.orders[o.paymentOrderId := Stored(l.orders, o).(status := Succeeded, walletUpdated := true)]
    ensures r.Ok? ==>
      r.value.wallets == Credited(l.wallets, SellerOf(sellers, o.paymentOrderId), Parse(o.amount).value, o.currency, now)
  {
    var seller := SellerOf(sellers, o.paymentOrderId);
    if seller == "" then Err(ValueError(MissingSeller + o.paymentOrderId))
    else
      match Parse(o.amount)
      case None => Err(InvalidOperation)
      case Some(amount) =>
        var wallets := Credited(l.wallets, seller, amount, o.currency, now);
        var orders := l.orders[o.paymentOrderId := Stored(l.orders, o).(status := Succeeded, walletUpdated := true)];
        Ok(Ledger(l.events, orders, wallets))
  }

  /**
    The SUCCESS loop over the queried rows, in order, stopping at the first
    exception with the writes made so far kept.  It never writes an event.
   */
  function CreditAll(l: Ledger, sellers: map<string, string>, found: seq<OrderRow>, now: real): (r: Progress)
    ensures r.ledger.events == l.events
    decreases |found|
  {
    if |found| == 0 then Progress(l, None)
    else
      match CreditOne(l, sellers, found[0], now)
      case Err(fault) => Progress(l, Some(fault))
      case Ok(next) => CreditAll(next, sellers, found[1..], now)
  }

  /**
    Whether or not the loop completes, no order outside the queried ids and
    no wallet outside the merchants they name is written.
   */
  lemma {:induction false} CreditAllFrame(l: Ledger, sellers: map<string, string>, found: seq<OrderRow>, now: real)
    ensures var r := CreditAll(l, sellers, found, now).ledger;
      (forall k | k !in OrderIds(found) ::
        (k in r.orders <==> k in l.orders) && (k in l.orders ==> r.orders[k] == l.orders[k]))
      && (forall w | w !in Merchants(sellers, found) ::
        (w in r.wallets <==> w in l.wallets) && (w in l.wallets ==> r.wallets[w] == l.wallets[w]))
    decreases |found|
  {
    if |found| > 0 && CreditOne(l, sellers, found[0], now).Ok? {
      OrderIdsCons(found);
      MerchantsCons(sellers, found);
      var next := CreditOne(l, sellers, found[0], now).value;
      assert CreditAll(l, sellers, found, now) == CreditAll(next, sellers, found[1..], now);
      CreditAllFrame(next, sellers, found[1..], now);
    }
  }

  /** A completed loop leaves every queried order SUCCESS with its wallet updated. */
  lemma {:induction false} CreditAllMarks(l: Ledger, sellers: map<string, string>, found: seq<OrderRow>, now: real)
    requires CreditAll(l, sellers, found, now).fault == None
    ensures var r := CreditAll(l, sellers, found, now).ledger;
      forall i | 0 <= i < |found| ::
        found[i].paymentOrderId in r.orders
        && r.orders[found[i].paymentOrderId].status == Succeeded
        && r.orders[found[i].paymentOrderId].walletUpdated
    decreases |found|
  {
    if |found| > 0 {
      var next := CreditOne(l, sellers, found[0], now).value;
      var r := CreditAll(l, sellers, found, now).ledger;
      assert CreditAll(l, sellers, found, now) == CreditAll(next, sellers, found[1..], now);
      CreditAllMarks(next, sellers, found[1..], now);
      CreditAllFrame(next, sellers, found[1..], now);
      forall i | 0 <= i < |found|
        ensures found[i].paymentOrderId in r.orders
        ensures r.orders[found[i].paymentOrderId].status == Succeeded
        ensures r.orders[found[i].paymentOrderId].walletUpdated
      {
        if i > 0 {
          assert found[1..][i - 1] == found[i];
        } else if found[0].paymentOrderId in OrderIds(found[1..]) {
          var j :| 0 <= j < |found[1..]| && found[1..][j].paymentOrderId == found[0].paymentOrderId;
        } else {
          assert next.orders[found[0].paymentOrderId].status == Succeeded;
        }
      }
    }
  }

  /** The event `update_item` that sets `is_payment_done`. */
  function MarkDone(events: map<string, EventRow>, checkoutId: string): (r: map<string, EventRow>)
    requires checkoutId in events
    ensures r.Keys == events.Keys && r[checkoutId].isPaymentDone
    ensures r[checkoutId] == events[checkoutId].(isPaymentDone := true)
    ensures forall k | k in events && k != checkoutId :: r[k] == events[k]
  {
    events[checkoutId := events[checkoutId].(isPaymentDone := true)]
  }

  /** The FAILED loop: each queried order, in turn, is set to FAILED. */
  function MarkFailed(orders: map<string, OrderRow>, found: seq<OrderRow>): map<string, OrderRow>
    decreases |found|
  {
    if |found| == 0 then orders
    else
      var o := found[0];
      MarkFailed(orders[o.paymentOrderId := Stored(orders, o).(status := Failed)], found[1..])
  }

  /**
    After the FAILED loop every queried order is FAILED, a stored row
    changes in its status alone, and no other row is written.
   */
  lemma {:induction false} MarkFailedEffect(orders: map<string, OrderRow>, found: seq<OrderRow>)
    ensures var r := MarkFailed(orders, found);
      r.Keys == orders.Keys + OrderIds(found)
      && (forall k | k in orders ::
            r[k] == if k in OrderIds(found) then orders[k].(status := Failed) else orders[k])
      && (forall i | 0 <= i < |found| :: r[found[i].paymentOrderId].status == Failed)
    decreases |found|
  {
    if |found| > 0 {
      OrderIdsCons(found);
      var o := found[0];
      var next := orders[o.paymentOrderId := Stored(orders, o).(status := Failed)];
      var r := MarkFailed(next, found[1..]);
      assert MarkFailed(orders, found) == r;
      MarkFailedEffect(next, found[1..]);
      forall k | k in orders
        ensures r[k] == if k in OrderIds(found) then orders[k].(status := Failed) else orders[k]
      {
        if k == o.paymentOrderId {
          assert next[k] == orders[k].(status := Failed);
        } else {
          assert next[k] == orders[k];
        }
      }
      forall i | 0 <= i < |found|
        ensures r[found[i].paymentOrderId].status == Failed
      {
        if i > 0 {
          assert found[1..][i - 1] == found[i];
          InOrderIds(found[1..], i - 1);
        } else {
          assert next[o.paymentOrderId].status == Failed;
        }
      }
    }
  }

  /**
    `process_payment_result`: the fault hook first; no queried rows means
    nothing to do; SUCCESS needs the payment event, credits every order in
    turn and then marks the event done; FAILED marks every order failed
    (a missing event does not matter); any other status writes nothing.
   */
  function Settle(l: Ledger, m: ResultMessage, found: seq<OrderRow>, now: real): (r: Settled)
    ensures SimulateError(OptionalObject(m.simulate), Stage, DefaultMessage).Some? ==>
      r == Settled(l, Err(SimulateError(OptionalObject(m.simulate), Stage, DefaultMessage).value))
    ensures SimulateError(OptionalObject(m.simulate), Stage, DefaultMessage) == None && |found| == 0 ==>
      r == Settled(l, Ok(Report(m.checkoutId, m.status, 0)))
    ensures SimulateError(OptionalObject(m.simulate), Stage, DefaultMessage) == None && |found| > 0
            && m.status == Succeeded && m.checkoutId !in l.events ==>
      r == Settled(l, Err(ValueError(MissingEvent + m.checkoutId)))
    ensures SimulateError(OptionalObject(m.simulate), Stage, DefaultMessage) == None && |found| > 0
            && m.status == Failed ==>
      r == Settled(l.(orders := MarkFailed(l.orders, found)), Ok(Report(m.checkoutId, m.status, |found|)))
    ensures SimulateError(OptionalObject(m.simulate), Stage, DefaultMessage) == None && |found| > 0
            && m.status != Succeeded && m.status != Failed ==>
      r == Settled(l, Ok(Report(m.checkoutId, m.status, |found|)))
    ensures r.result.Ok? ==> r.result.value.checkoutId == m.checkoutId && r.result.value.status == m.status
    ensures r.result.Ok? && |found| > 0 ==> r.result.value.processedOrders == |found|
  {
    match SimulateError(OptionalObject(m.simulate), Stage, DefaultMessage)
    case Some(fault) => Settled(l, Err(fault))
    case None =>
      if |found| == 0 then Settled(l, Ok(Report(m.checkoutId, m.status, 0)))
      else if m.status == Succeeded then
        if m.checkoutId !in l.events then Settled(l, Err(ValueError(MissingEvent + m.checkoutId)))
        else
          var p := CreditAll(l, l.events[m.checkoutId].sellerInfo, found, now);
          if p.fault.Some? then Settled(p.ledger, Err(p.fault.value))
          else Settled(p.ledger.(events := MarkDone(p.ledger.events, m.checkoutId)), Ok(Report(m.checkoutId, m.status, |found|)))
      else if m.status == Failed then
        Settled(l.(orders := MarkFailed(l.orders, found)), Ok(Report(m.checkoutId, m.status, |found|)))
      else Settled(l, Ok(Report(m.checkoutId, m.status, |found|)))
  }

  /**
    `record_handler`: the record's body is decoded (a missing body reads as
    `{}`), validated as a Result message, and settled.
   */
  function HandleRecord(l: Ledger, body: Body, found: seq<OrderRow>, now: real): (r: Settled)
    ensures RecordData(body).Err? ==> r == Settled(l, Err(DecodeError))
    ensures RecordData(body).Ok? && DecodeResult(RecordData(body).value).None? ==>
      r == Settled(l, Err(ValidationFailed))
    ensures RecordData(body).Ok? && DecodeResult(RecordData(body).value).Some? ==>
      r == Settle(l, DecodeResult(RecordData(body).value).value, found, now)
  {
    match RecordData(body)
    case Err(fault) => Settled(l, Err(fault))
    case Ok(data) =>
      match DecodeResult(data)
      case None => Settled(l, Err(ValidationFailed))
      case Some(m) => Settle(l, m, found, now)
  }

  /** What one record meets: its body, the order rows the index query returns, and the clock. */
  datatype RecordInput = RecordInput(body: Body, found: seq<OrderRow>, now: real)

  /** The per-record handler as the batch sees it. */
  function RecordStep(): (Ledger, RecordInput) -> Batch.Step<Ledger>
  {
    (l: Ledger, x: RecordInput) =>
      var r := HandleRecord(l, x.body, x.found, x.now);
      Batch.Step(r.ledger, r.result.Err?)
  }

  /** `handler`: the batch of records, handled in order, with the failed ones reported. */
  function HandleBatch(l: Ledger, records: seq<Batch.Record<RecordInput>>): Batch.Outcome<Ledger>
  {
    Batch.Run(RecordStep(), l, records)
  }

  /** The message ids of a batch, in order. */
  function MessageIds(records: seq<Batch.Record<RecordInput>>): (r: seq<string>)
    ensures |r| == |records| && forall i | 0 <= i < |records| :: r[i] == records[i].messageId
  {
    seq(|records|, i requires 0 <= i < |records| => records[i].messageId)
  }

  /** A record whose body is not a Result message fails without writing. */
  predicate Unreadable(body: Body)
  {
    RecordData(body).Err? || DecodeResult(RecordData(body).value).None?
  }

  /** A batch of records none of which is a Result message writes nothing and reports every record. */
  lemma {:induction false} UnreadableBatch(l: Ledger, records: seq<Batch.Record<RecordInput>>)
    requires forall i | 0 <= i < |records| :: Unreadable(records[i].input.body)
    ensures HandleBatch(l, records) == Batch.Outcome(l, MessageIds(records))
    decreases |records|
  {
    if |records| > 0 {
      var n := |records| - 1;
      assert records[..|records| - 1] == records[..n];
      UnreadableBatch(l, records[..n]);
      assert MessageIds(records) == MessageIds(records[..n]) + [records[n].messageId];
    } else {
      assert MessageIds(records) == [];
    }
  }

  // ---------------------------------------------------------------- properties

  /**
    What the SUCCESS loop credits to one merchant, defined order by order
    from the amounts and the seller mapping alone.
   */
  ghost function CreditedTo(sellers: map<string, string>, found: seq<OrderRow>, merchant: string): real
    decreases |found|
  {
    if |found| == 0 then 0.0
    else
      var o := found[0];
      var here := if SellerOf(sellers, o.paymentOrderId) == merchant && Parse(o.amount).Some?
                  then Value(Parse(o.amount).value) else 0.0;
      here + CreditedTo(sellers, found[1..], merchant)
  }

  /**
    A completed SUCCESS loop adds to every wallet exactly the amounts of the
    orders whose seller it is: balances are additive, not overwritten.
   */
  lemma {:induction false} CreditAllBalances(l: Ledger, sellers: map<string, string>, found: seq<OrderRow>, now: real, merchant: string)
    requires CreditAll(l, sellers, found, now).fault == None
    ensures BalanceOf(CreditAll(l, sellers, found, now).ledger.wallets, merchant)
      == BalanceOf(l.wallets, merchant) + CreditedTo(sellers, found, merchant)
    decreases |found|
  {
    if |found| > 0 {
      var next := CreditOne(l, sellers, found[0], now).value;
      assert CreditAll(l, sellers, found, now) == CreditAll(next, sellers, found[1..], now);
      CreditAllBalances(next, sellers, found[1..], now, merchant);
    }
  }

  /** Whether the loop completes depends only on the seller mapping and the amounts, not on the tables. */
  lemma {:induction false} CreditAllFaultIndependent(l: Ledger, l': Ledger, sellers: map<string, string>,
                                                     found: seq<OrderRow>, now: real, now': real)
    ensures CreditAll(l, sellers, found, now).fault == CreditAll(l', sellers, found, now').fault
    decreases |found|
  {
    if |found| > 0 && CreditOne(l, sellers, found[0], now).Ok? {
      CreditAllFaultIndependent(CreditOne(l, sellers, found[0], now).value,
                                CreditOne(l', sellers, found[0], now').value, sellers, found[1..], now, now');
    }
  }

  /** The loop completes exactly when every order names a seller and carries an amount `Decimal` reads. */
  lemma {:induction false} CreditAllCompletes(l: Ledger, sellers: map<string, string>, found: seq<OrderRow>, now: real)
    ensures CreditAll(l, sellers, found, now).fault == None <==>
      forall i | 0 <= i < |found| :: SellerOf(sellers, found[i].paymentOrderId) != "" && Parse(found[i].amount).Some?
    decreases |found|
  {
    if |found| > 0 {
      assert forall i | 0 < i < |found| :: found[1..][i - 1] == found[i];
      match CreditOne(l, sellers, found[0], now)
      case Err(_) =>
      case Ok(next) =>
        CreditAllCompletes(next, sellers, found[1..], now);
        assert CreditAll(l, sellers, found, now) == CreditAll(next, sellers, found[1..], now);
    }
  }

  /**
    Running the loop over `a + b` is running it over `a` and, if that
    completed, over `b` from where it left the tables.
   */
  lemma {:induction false} CreditAllAppend(l: Ledger, sellers: map<string, string>, a: seq<OrderRow>, b: seq<OrderRow>, now: real)
    ensures var p := CreditAll(l, sellers, a, now);
      CreditAll(l, sellers, a + b, now) == if p.fault.Some? then p else CreditAll(p.ledger, sellers, b, now)
    decreases |a|
  {
    if |a| > 0 {
      assert (a + b)[0] == a[0];
      assert (a + b)[1..] == a[1..] + b;
      match CreditOne(l, sellers, a[0], now)
      case Err(_) =>
        assert CreditAll(l, sellers, a + b, now) == Progress(l, Some(CreditOne(l, sellers, a[0], now).error));
      case Ok(next) =>
        assert CreditAll(l, sellers, a + b, now) == CreditAll(next, sellers, a[1..] + b, now);
        assert CreditAll(l, sellers, a, now) == CreditAll(next, sellers, a[1..], now);
        CreditAllAppend(next, sellers, a[1..], b, now);
    } else {
      assert a + b == b;
    }
  }

  /**
    When order `k` is the first that cannot be credited, the message fails
    with that order's exception, the credits and statuses of orders
    `0..k-1` stay written and the event is not marked done.
   */
  lemma {:induction false} FailureKeepsEarlierWrites(l: Ledger, m: ResultMessage, found: seq<OrderRow>, now: real, k: nat)
    requires SimulateError(OptionalObject(m.simulate), Stage, DefaultMessage) == None
    requires m.status == Succeeded && m.checkoutId in l.events && k < |found|
    requires var p := CreditAll(l, l.events[m.checkoutId].sellerInfo, found[..k], now);
      p.fault == None && CreditOne(p.ledger, l.events[m.checkoutId].sellerInfo, found[k], now).Err?
    ensures var sellers := l.events[m.checkoutId].sellerInfo;
      var p := CreditAll(l, sellers, found[..k], now);
      var r := Settle(l, m, found, now);
      r == Settled(p.ledger, Err(CreditOne(p.ledger, sellers, found[k], now).error))
      && r.ledger.events == l.events
  {
    var sellers := l.events[m.checkoutId].sellerInfo;
    var p := CreditAll(l, sellers, found[..k], now);
    assert found == found[..k] + found[k..];
    CreditAllAppend(l, sellers, found[..k], found[k..], now);
    assert found[k..][0] == found[k];
  }

  /**
    A SUCCESS message that settles writes the credits, marks every order
    SUCCESS with its wallet updated and marks the event done, and touches
    no other event.
   */
  lemma {:induction false} SuccessSettles(l: Ledger, m: ResultMessage, found: seq<OrderRow>, now: real, merchant: string)
    requires m.status == Succeeded && |found| > 0
    requires Settle(l, m, found, now).result.Ok?
    ensures m.checkoutId in l.events
    ensures var sellers := l.events[m.checkoutId].sellerInfo;
      var r := Settle(l, m, found, now).ledger;
      BalanceOf(r.wallets, merchant) == BalanceOf(l.wallets, merchant) + CreditedTo(sellers, found, merchant)
      && r.events == MarkDone(l.events, m.checkoutId)
      && (forall i | 0 <= i < |found| ::
            found[i].paymentOrderId in r.orders && r.orders[found[i].paymentOrderId].status == Succeeded)
  {
    CreditAllBalances(l, l.events[m.checkoutId].sellerInfo, found, now, merchant);
    CreditAllMarks(l, l.events[m.checkoutId].sellerInfo, found, now);
  }

  /**
    Nothing stops a SUCCESS message from being settled twice (the
    `wallet_updated` flag is never read): the second delivery settles too,
    and every wallet ends up credited twice.
   */
  lemma {:induction false} SettlingTwiceCreditsTwice(l: Ledger, m: ResultMessage, found: seq<OrderRow>, now: real, later: real, merchant: string)
    requires m.status == Succeeded && |found| > 0
    requires Settle(l, m, found, now).result.Ok?
    ensures m.checkoutId in l.events
    ensures var once := Settle(l, m, found, now).ledger;
      var twice := Settle(once, m, found, later);
      twice.result.Ok?
      && BalanceOf(twice.ledger.wallets, merchant)
         == BalanceOf(l.wallets, merchant) + 2.0 * CreditedTo(l.events[m.checkoutId].sellerInfo, found, merchant)
  {
    var sellers := l.events[m.checkoutId].sellerInfo;
    var once := Settle(l, m, found, now).ledger;
    assert once.events[m.checkoutId].sellerInfo == sellers;
    CreditAllFaultIndependent(l, once, sellers, found, now, later);
    SuccessSettles(l, m, found, now, merchant);
    SuccessSettles(once, m, found, later, merchant);
  }

  /**
    A SUCCESS message that fails at order `k` fails the same way when it is
    delivered again, and each delivery credits orders `0..k-1` once more:
    with nothing rolled back, redelivery of a partly settled message
    credits its first sellers twice.
   */
  lemma {:induction false} RedeliveryRecredits(l: Ledger, m: ResultMessage, found: seq<OrderRow>, now: real, later: real, k: nat, merchant: string)
    requires SimulateError(OptionalObject(m.simulate), Stage, DefaultMessage) == None
    requires m.status == Succeeded && m.checkoutId in l.events && k < |found|
    requires var p := CreditAll(l, l.events[m.checkoutId].sellerInfo, found[..k], now);
      p.fault == None && CreditOne(p.ledger, l.events[m.checkoutId].sellerInfo, found[k], now).Err?
    ensures var once := Settle(l, m, found, now);
      var twice := Settle(once.ledger, m, found, later);
      once.result.Err? && twice.result.Err?
      && BalanceOf(twice.ledger.wallets, merchant)
         == BalanceOf(l.wallets, merchant) + 2.0 * CreditedTo(l.events[m.checkoutId].sellerInfo, found[..k], merchant)
  {
    var sellers := l.events[m.checkoutId].sellerInfo;
    var p := CreditAll(l, sellers, found[..k], now);
    FailureKeepsEarlierWrites(l, m, found, now, k);
    var once := Settle(l, m, found, now);
    assert once.ledger == p.ledger;
    CreditAllFaultIndependent(l, p.ledger, sellers, found[..k], now, later);
    var p2 := CreditAll(p.ledger, sellers, found[..k], later);
    assert CreditOne(p2.ledger, sellers, found[k], later).Err?;
    FailureKeepsEarlierWrites(p.ledger, m, found, later, k);
    CreditAllBalances(l, sellers, found[..k], now, merchant);
    CreditAllBalances(p.ledger, sellers, found[..k], later, merchant);
  }

  /**
    A FAILED message with queried rows marks every one of them FAILED and
    writes no wallet and no event, whether or not the payment event exists.
   */
  lemma {:induction false} FailedMarksOrders(l: Ledger, m: ResultMessage, found: seq<OrderRow>, now: real)
    requires SimulateError(OptionalObject(m.simulate), Stage, DefaultMessage) == None
    requires m.status == Failed && |found| > 0
    ensures var r := Settle(l, m, found, now);
      r.result == Ok(Report(m.checkoutId, Failed, |found|))
      && r.ledger.wallets == l.wallets && r.ledger.events == l.events
      && (forall i | 0 <= i < |found| ::
            found[i].paymentOrderId in r.ledger.orders && r.ledger.orders[found[i].paymentOrderId].status == Failed)
      && (forall k | k in l.orders && k !in OrderIds(found) :: k in r.ledger.orders && r.ledger.orders[k] == l.orders[k])
  {
    MarkFailedEffect(l.orders, found);
    forall i | 0 <= i < |found|
      ensures found[i].paymentOrderId in OrderIds(found)
    {
      InOrderIds(found, i);
    }
  }
}

=== FILE: text.dfy ===
/** Decimal digit strings and the small string utilities the stages rely on. */
module Text {

  predicate IsDigit(c: char)
  {
    '0' <= c <= '9'
  }

  predicate AllDigits(s: string)
  {
    forall i | 0 <= i < |s| :: IsDigit(s[i])
  }

  function Pow10(n: nat): (r: nat)
    ensures r >= 1
  {
    if n == 0 then 1 else 10 * Pow10(n - 1)
  }

  lemma {:induction false} Pow10Add(a: nat, b: nat)
    ensures Pow10(a + b) == Pow10(a) * Pow10(b)
    decreases b
  {
    if b > 0 {
      Pow10Add(a, b - 1);
      assert Pow10(a + b) == 10 * Pow10(a + b - 1);
    }
  }

  function DigitChar(d: nat): (c: char)
    requires d < 10
    ensures IsDigit(c) && DigitOf(c) == d
  {
    ('0' as int + d) as char
  }

  /** The value of one digit character (callers only pass digits). */
  function DigitOf(c: char): nat
  {
    if IsDigit(c) then c as int - '0' as int else 0
  }

  /**
    The number a string of decimal digits denotes (leading zeros allowed);
    callers check `AllDigits` first.
   */
  function DigitsValue(s: string): nat
  {
    if |s| == 0 then 0
    else 10 * DigitsValue(s[..|s| - 1]) + DigitOf(s[|s| - 1])
  }

  /** Python's `str()` of a non-negative int: decimal digits, no leading zero. */
  function NatToString(n: nat): (r: string)
    ensures |r| >= 1 && AllDigits(r)
    ensures DigitsValue(r) == n
    ensures r[0] == '0' ==> n == 0
  {
    if n < 10 then [DigitChar(n)]
    else
      var prefix := NatToString(n / 10);
      var r := prefix + [DigitChar(n % 10)];
      assert r[..|r| - 1] == prefix;
      r
  }

  function Zeros(n: nat): (r: string)
    ensures |r| == n && AllDigits(r)
    ensures forall i | 0 <= i < n :: r[i] == '0'
  {
    if n == 0 then "" else Zeros(n - 1) + "0"
  }

  lemma {:induction false} AllDigitsConcat(a: string, b: string)
    requires AllDigits(a) && AllDigits(b)
    ensures AllDigits(a + b)
  {
    forall i | 0 <= i < |a + b|
      ensures IsDigit((a + b)[i])
    {
      if i >= |a| {
        assert (a + b)[i] == b[i - |a|];
      }
    }
  }

  lemma {:induction false} AllDigitsSlice(s: string, i: nat, j: nat)
    requires AllDigits(s) && i <= j <= |s|
    ensures AllDigits(s[i..j])
  {
    forall k | 0 <= k < j - i
      ensures IsDigit(s[i..j][k])
    {
      assert s[i..j][k] == s[i + k];
    }
  }

  /** Cutting a digit string anywhere leaves two digit strings that join back to it. */
  lemma {:induction false} AllDigitsSplit(s: string, n: nat)
    requires AllDigits(s) && n <= |s|
    ensures AllDigits(s[..n]) && AllDigits(s[n..]) && s[..n] + s[n..] == s
  {
    AllDigitsSlice(s, 0, n);
    AllDigitsSlice(s, n, |s|);
    assert s[0..n] == s[..n];
    assert s[n..|s|] == s[n..];
  }

  /** Appending digits shifts the prefix by a power of ten. */
  lemma {:induction false} DigitsValueConcat(a: string, b: string)
    ensures DigitsValue(a + b) == DigitsValue(a) * Pow10(|b|) + DigitsValue(b)
    decreases |b|
  {
    if |b| == 0 {
      assert a + b == a;
    } else {
      var b' := b[..|b| - 1];
      assert (a + b)[..|a + b| - 1] == a + b';
      assert (a + b)[|a + b| - 1] == b[|b| - 1];
      DigitsValueConcat(a, b');
      var last := DigitOf(b[|b| - 1]);
      var va, vb', p := DigitsValue(a), DigitsValue(b'), Pow10(|b'|);
      assert DigitsValue(a + b) == 10 * (va * p + vb') + last;
      assert DigitsValue(b) == 10 * vb' + last;
      assert Pow10(|b|) == 10 * p;
      ShiftStep(va, p, vb', last);
    }
  }

  lemma {:induction false} ShiftStep(va: int, p: int, vb: int, last: int)
    ensures 10 * (va * p + vb) + last == va * (10 * p) + (10 * vb + last)
  {
  }

  lemma {:induction false} ZerosValue(n: nat)
    ensures DigitsValue(Zeros(n)) == 0
  {
    if n > 0 {
      var z := Zeros(n - 1);
      var s := z + "0";
      assert s[..|s| - 1] == z;
      assert s[|s| - 1] == '0';
      ZerosValue(n - 1);
    }
  }

  /** Leading zeros change neither digit-ness nor value. */
  lemma {:induction false} ZerosPrefix(n: nat, s: string)
    requires AllDigits(s)
    ensures AllDigits(Zeros(n) + s) && DigitsValue(Zeros(n) + s) == DigitsValue(s)
  {
    AllDigitsConcat(Zeros(n), s);
    DigitsValueConcat(Zeros(n), s);
    ZerosValue(n);
  }

  /** Python's `sep.join(parts)`. */
  function Join(sep: string, parts: seq<string>): (r: string)
  {
    if |parts| == 0 then ""
    else if |parts| == 1 then parts[0]
    else Join(sep, parts[..|parts| - 1]) + sep + parts[|parts| - 1]
  }

  /** Python's `s.split(sep)` for a one-character separator: the pieces between separators, empty ones included. */
  function Split(s: string, sep: char): (r: seq<string>)
    ensures |r| > 0
    decreases |s|
  {
    if |s| == 0 then [""]
    else
      var rest := Split(s[1..], sep);
      if s[0] == sep then [""] + rest else [[s[0]] + rest[0]] + rest[1..]
  }

  lemma {:induction false} SplitNoSeparator(s: string, sep: char)
    requires sep !in s
    ensures Split(s, sep) == [s]
    decreases |s|
  {
    if |s| > 0 {
      SplitNoSeparator(s[1..], sep);
      assert [s[0]] + s[1..] == s;
    }
  }

  /** One step of `Split`: the first character either ends the first piece or joins it. */
  lemma {:induction false} SplitCons(c: char, t: string, sep: char)
    ensures Split([c] + t, sep)
      == if c == sep then [""] + Split(t, sep) else [[c] + Split(t, sep)[0]] + Split(t, sep)[1..]
  {
    assert ([c] + t)[1..] == t;
  }

  /** A separator cuts the text into the pieces before it and the pieces after it. */
  lemma {:induction false} SplitAround(a: string, sep: char, b: string)
    ensures Split(a + [sep] + b, sep) == Split(a, sep) + Split(b, sep)
    decreases |a|
  {
    if |a| == 0 {
      assert a + [sep] + b == [sep] + b;
      SplitCons(sep, b, sep);
    } else {
      var c := a[0];
      var rest := a[1..];
      assert a == [c] + rest;
      assert a + [sep] + b == [c] + (rest + [sep] + b);
      SplitCons(c, rest + [sep] + b, sep);
      SplitCons(c, rest, sep);
      SplitAround(rest, sep, b);
      ConsPieces(c, sep, Split(rest, sep), Split(b, sep));
    }
  }

  /** The list algebra behind `SplitAround`: one step of `Split` in front of a concatenation of pieces. */
  lemma {:induction false} ConsPieces(c: char, sep: char, head: seq<string>, tail: seq<string>)
    requires |head| > 0
    ensures (if c == sep then [""] + (head + tail) else [[c] + (head + tail)[0]] + (head + tail)[1..])
      == (if c == sep then [""] + head else [[c] + head[0]] + head[1..]) + tail
  {
    if c != sep {
      assert (head + tail)[1..] == head[1..] + tail;
    }
  }

  /** Splitting a join at its separator gives back the parts, when no part holds the separator. */
  lemma {:induction false} SplitJoin(sep: char, parts: seq<string>)
    requires |parts| > 0
    requires forall k | 0 <= k < |parts| :: sep !in parts[k]
    ensures Split(Join([sep], parts), sep) == parts
    decreases |parts|
  {
    var n := |parts| - 1;
    if n == 0 {
      SplitNoSeparator(parts[0], sep);
    } else {
      SplitJoin(sep, parts[..n]);
      SplitAround(Join([sep], parts[..n]), sep, parts[n]);
      SplitNoSeparator(parts[n], sep);
      assert parts[..n] + [parts[n]] == parts;
    }
  }

  predicate StartsWith(s: string, prefix: string)
  {
    |prefix| <= |s| && s[..|prefix|] == prefix
  }

  /** True when `pattern` occurs somewhere in `s`. */
  predicate Occurs(s: string, pattern: string)
  {
    exists i | 0 <= i <= |s| :: StartsWith(s[i..], pattern)
  }

  /**
    Python's `s.replace(pattern, "")`: scanning left to right, every
    non-overlapping occurrence is dropped; the text left behind is not
    rescanned.
   */
  function RemoveAll(s: string, pattern: string): (r: string)
    requires |pattern| > 0
    decreases |s|
  {
    if |s| == 0 then ""
    else if StartsWith(s, pattern) then RemoveAll(s[|pattern|..], pattern)
    else [s[0]] + RemoveAll(s[1..], pattern)
  }

  /** A leading occurrence of the pattern is dropped. */
  lemma {:induction false} RemoveAllLeading(pattern: string, s: string)
    requires |pattern| > 0
    ensures RemoveAll(pattern + s, pattern) == RemoveAll(s, pattern)
  {
    assert (pattern + s)[..|pattern|] == pattern;
    assert (pattern + s)[|pattern|..] == s;
  }

  /** A text in which the pattern never occurs comes back unchanged. */
  lemma {:induction false} RemoveAllAbsent(s: string, pattern: string)
    requires |pattern| > 0 && !Occurs(s, pattern)
    ensures RemoveAll(s, pattern) == s
    decreases |s|
  {
    if |s| > 0 {
      assert s[0..] == s;
      assert !StartsWith(s, pattern);
      assert !Occurs(s[1..], pattern) by {
        forall i | 0 <= i <= |s[1..]|
          ensures !StartsWith(s[1..][i..], pattern)
        {
          assert s[1..][i..] == s[i + 1..];
        }
      }
      RemoveAllAbsent(s[1..], pattern);
    }
  }

  /**
    Prefixing a text with characters that cannot start the pattern creates
    no occurrence of it.
   */
  lemma {:induction false} AbsentAfterPrefix(a: string, b: string, pattern: string)
    requires |pattern| > 0 && !Occurs(b, pattern)
    requires forall k | 0 <= k < |a| :: a[k] != pattern[0]
    ensures !Occurs(a + b, pattern)
  {
    forall i | 0 <= i <= |a + b|
      ensures !StartsWith((a + b)[i..], pattern)
    {
      if i < |a| {
        assert (a + b)[i..][0] == a[i];
      } else {
        assert (a + b)[i..] == b[i - |a|..];
      }
    }
  }
}
